=== FILE: README.md ===
# lime-ui core, modelled in Dafny

This project models four pieces of the `lime-ui` crate of the lime UI
toolkit:

- **the layout engine** (`LayoutSystem`). It owns a Cassowary constraint
  solver and pins a `zero` variable to 0. It binds two edit variables to the
  window width and height and gives the root entity a position spanning
  them. Once per tick it applies the newest window size, turns visibility
  changes into constraint swaps, and hands every queued constraint update to
  the solver in order. Recoverable solver errors are logged and skipped.
  Finally it pushes changed variable values into every position.
- **the visibility component** (`Visibility`). A tri-state flag
  (`Visible`, `Hidden`, `Collapsed`) whose changes are announced on an event
  channel, plus the classifier that tells the layout engine which changes
  matter for layout.
- **the input router** (`EventSystem`). It turns window-system events into
  UI events addressed to the keyboard-focused entity or to the hovered
  entity, and keeps the hover state with Enter/Exit events.
- **the component registry** (`Registry`). A table from component names in
  scene files to the component's type and its read-and-store routine.

Modules: `Common` (option, result, entities, channel cursors),
`VisibilityModel`, `EventRouting`, `ComponentRegistry`, `Cassowary` (the
solver as the engine sees it), `ConstraintStore` (the `Constraints`
component storage and its update queue) and `LayoutEngine`.

The solver's arithmetic is abstract. An `Oracle` says whether a set of
required constraints can hold together, and whether a request meets an
internal solver fault. Properties that depend on the arithmetic are stated
under hypotheses on the oracle: `NeverFaults`, `AlwaysSatisfiable`, and
`Monotone` (dropping constraints keeps a set satisfiable).

A `panic!` in the source is an `Abort` (or `Failure`) outcome in the model. A
logged `error!`/`warn!` is a `Warning` appended to the tick's warning list,
with the state left as the source leaves it.

## Model

| member | source | states |
|---|---|---|
| `VisibilityModel.New` | lime-ui/src/draw/visibility.rs:16-20 | A new component is `Visible` and is drawn. |
| `VisibilityModel.NeedsDraw` | lime-ui/src/draw/visibility.rs:22-24 | A component is drawn exactly when its state is neither `Hidden` nor `Collapsed`. |
| `VisibilityModel.Get` | lime-ui/src/draw/visibility.rs:26-28 | Returns the stored state, which is all the component holds. |
| `VisibilityModel.NeedsDrawIffVisible` | lime-ui/src/draw/visibility.rs:22-24 | An entity is drawn exactly when its state is `Visible`. After `Set`, that holds exactly when the state set was `Visible`. |
| `VisibilityModel.Set` | lime-ui/src/draw/visibility.rs:30-40 | The new state is stored. An event carrying the entity, the previous state and the new state is appended exactly when the state changes. Otherwise the channel is untouched. |
| `VisibilityModel.NeedsLayoutChanged` | lime-ui/src/draw/visibility.rs:57-64 | `Some(true)` exactly when leaving `Collapsed`. `Some(false)` exactly when entering it. `None` exactly when both sides are collapsed or neither is. |
| `VisibilityModel.SetTwiceIsIdempotent` | lime-ui/src/draw/visibility.rs:30-40 | Setting the same state twice announces at most one event. The second call changes neither component nor channel. |
| `VisibilityModel.EmittedEventLayoutRelevance` | lime-ui/src/draw/visibility.rs:36-39 | An emitted event is always a real change. It is layout-relevant exactly when one side of it is `Collapsed`. |
| `VisibilityModel.HiddenVisibleIsLayoutNeutral` | lime-ui/src/draw/visibility.rs:62 | Transitions between `Visible` and `Hidden` never affect layout. |
| `EventRouting.KeyboardFocus` | lime-ui/src/event/sys.rs:16-28 | Keyboard input targets the focused entity while it is alive, otherwise the root. |
| `EventRouting.KeyboardInputStep` | lime-ui/src/event/sys.rs:30-38 | One keyboard event is sent to the focus target exactly when the input converts to one. Otherwise nothing is sent. |
| `EventRouting.ReceivedCharacterStep` | lime-ui/src/event/sys.rs:40-46 | Exactly one `Char` event is appended, addressed to the focus target. Earlier events are kept. |
| `EventRouting.CursorMovedStep` | lime-ui/src/event/sys.rs:48-69 | The hover becomes the hit-test result. On a change, the old hover gets Exit and the new one gets Enter, in that order. The hovered entity then gets Move. |
| `EventRouting.CursorLeftStep` | lime-ui/src/event/sys.rs:71-76 | The hovered entity, if any, gets Exit, and nothing is hovered afterwards. |
| `EventRouting.MouseInputStep` | lime-ui/src/event/sys.rs:78-90 | A button event goes to the hovered entity. With nothing hovered it is dropped. |
| `EventRouting.MouseMotionStep` | lime-ui/src/event/sys.rs:92-99 | Raw motion goes to the hovered entity. With nothing hovered it is dropped. |
| `EventRouting.Run` | lime-ui/src/event/sys.rs:113-138 | Unrouted events change nothing. Root, live entities and focus are never changed. The event channel is only appended to. |
| `EventRouting.RunDispatch` | lime-ui/src/event/sys.rs:113-137 | A typed character sends one `Char` to the focus target. Key input sends the converted key there exactly when it converts. A cursor move is handled by the cursor step, so the hit-test result becomes the hover with Exit, Enter and Move sent as that step states. Leaving the window sends Exit to the hovered entity, if any, and clears the hover. Button input and raw motion send one event to the hovered entity, or nothing when nothing is hovered. |
| `EventRouting.KeyboardEventsGoToFocus` | lime-ui/src/event/sys.rs:16-46 | Every keyboard event a step sends is addressed to the focus target before the step, which is alive or is the root. |
| `EventRouting.ReplayAppend` | lime-ui/src/event/sys.rs:56-75 | Replaying the hover discipline over a concatenated log equals replaying the two parts in turn. |
| `EventRouting.ReplayAppendConsistent` | lime-ui/src/event/sys.rs:56-75 | Appending a discipline-respecting tail to a consistent log gives the tail's final hover. |
| `EventRouting.RunKeepsHoverConsistent` | lime-ui/src/event/sys.rs:48-99 | Every routed event preserves this invariant: replaying the channel gives the current hover. Enter is sent only when nothing is hovered. Exit and pointer events reach only the hovered entity. This holds whatever the hit test answers. |
| `EventRouting.CursorMovedKeepsHoverConsistent` | lime-ui/src/event/sys.rs:48-69 | A cursor move keeps the channel's replay equal to the hover, which is now the hit-test result. |
| `EventRouting.CursorLeftKeepsHoverConsistent` | lime-ui/src/event/sys.rs:71-76 | Leaving the window keeps the channel's replay equal to the hover, which is now empty. |
| `EventRouting.CursorLeftTwice` | lime-ui/src/event/sys.rs:71-76 | Leaving twice equals leaving once, so at most one Exit is sent. |
| `ComponentRegistry.RegisterImpl` | lime-ui/src/de/registry.rs:109-123 | Fails exactly when the key is taken, with the `component '<key>' already added` message. Otherwise it adds exactly that key with the given type and routine and leaves other keys unchanged. |
| `ComponentRegistry.Register` | lime-ui/src/de/registry.rs:78-86 | Like `RegisterImpl`, with the default read and the default store. |
| `ComponentRegistry.RegisterWithDeserialize` | lime-ui/src/de/registry.rs:88-93 | Like `RegisterImpl`, with the type's own read and the default store. |
| `ComponentRegistry.RegisterWithInsert` | lime-ui/src/de/registry.rs:95-100 | Like `RegisterImpl`, with the default read and the type's own store. |
| `ComponentRegistry.RegisterWithDeserializeAndInsert` | lime-ui/src/de/registry.rs:102-107 | Like `RegisterImpl`, with the type's own read and store. |
| `ComponentRegistry.RegisterBy` | lime-ui/src/de/registry.rs:78-107 | Each of the four registration variants is `RegisterImpl` with the routine that variant builds. |
| `ComponentRegistry.RegisterAll` | lime-ui/src/de/registry.rs:65-71 | A sequence of registrations succeeds exactly when its names are pairwise distinct and new. On success every old entry is kept and every name maps to its own entry. |
| `ComponentRegistry.New` | lime-ui/src/de/registry.rs:55-76 | The seven registrations, made one after the other, never hit the duplicate-key panic. The result is exactly the built-in table: each name with its type and the routine its registration variant builds. |
| `ComponentRegistry.BuiltinLookups` | lime-ui/src/de/registry.rs:65-71 | The built-in table knows exactly the seven built-in names, and looking each one up gives its own type. |
| `ComponentRegistry.BuiltinRoutines` | lime-ui/src/de/registry.rs:65-71 | `Style` and `Visibility` have their own read and store routines. The other five use the default ones. |
| `ComponentRegistry.GetDe` | lime-ui/src/de/registry.rs:125-140 | Succeeds exactly for registered keys, returning their routine. Otherwise fails with `key '<key>' not in registry`. |
| `ComponentRegistry.GetTy` | lime-ui/src/de/registry.rs:142-154 | Succeeds exactly for registered keys, returning their type. Otherwise fails with `key '<key>' not in registry`. |
| `ComponentRegistry.LookupsAgree` | lime-ui/src/de/registry.rs:125-154 | Both lookups succeed for the same keys and fail with the same message. |
| `ComponentRegistry.RegisterThenLookup` | lime-ui/src/de/registry.rs:109-154 | After registering a fresh key, both lookups find it. Every other key looks up as before. |
| `ComponentRegistry.RegisterTwoUserComponents` | lime-ui/src/de/tests.rs:39-43 | A registry from `New` accepts `comp1` and then `comp2` and finds both. It then refuses `comp1` a second time. |
| `ComponentRegistry.DeserializeAndInsert` | lime-ui/src/de/registry.rs:157-171 | The read step sees the world. The store step runs only after a successful read, on the value read and the world as the read left it. A read error is passed on and nothing is stored. |
| `ComponentRegistry.Invoke` | lime-ui/src/de/registry.rs:78-106 | A registered routine reads with the half its tag names and stores with the half its tag names. A failed read is passed on and nothing is stored. |
| `ComponentRegistry.VariantRoutines` | lime-ui/src/de/registry.rs:78-106 | Plain registration reads and stores by the defaults. The other three substitute the type's own read, own store, or both. |
| `ComponentRegistry.FailedReadStoresNothing` | lime-ui/src/de/registry.rs:127-171 | For every registered name, the routine looked up stores nothing when its read fails. The error is passed on. |
| `Cassowary.New` | lime-ui/src/layout/sys.rs:35 | A new solver holds no constraints and no edit variables. |
| `Cassowary.AddConstraint` | lime-ui/src/layout/sys.rs:75-79 | Outcomes the engine handles: a duplicate exactly when already present. Unsatisfiable exactly when new, required, and the required set cannot hold with it. Otherwise the constraint is added unless an internal fault occurs. |
| `Cassowary.RemoveConstraint` | lime-ui/src/layout/sys.rs:86-89 | An unknown constraint exactly when absent. Otherwise it is removed unless an internal fault occurs. |
| `Cassowary.AddEditVariable` | lime-ui/src/layout/sys.rs:39-42 | Refused when already an edit variable, or when the clipped strength is required. Otherwise recorded with the clipped strength. |
| `Cassowary.SuggestValue` | lime-ui/src/layout/sys.rs:65-68 | An unknown edit variable exactly when not registered. Otherwise the suggestion is recorded and nothing else changes. |
| `Cassowary.AddKeepsConsistent` | lime-ui/src/layout/sys.rs:75-78 | A successful add keeps the required constraints satisfiable. |
| `Cassowary.RemoveKeepsConsistent` | lime-ui/src/layout/sys.rs:86-87 | A successful removal keeps the required constraints satisfiable under a monotone arithmetic. |
| `ConstraintStore.Expand` | lime-ui/src/layout/sys.rs:115-116 | Marks the entity expanded and queues the removal of its collapsed substitute, then the addition of its normal constraints. Every other component stays as it was. |
| `ConstraintStore.Collapse` | lime-ui/src/layout/sys.rs:117-118 | Marks the entity collapsed and queues the removal of its normal constraints, then the addition of the substitute. Every other component stays as it was. |
| `ConstraintStore.CollapseThenExpand` | lime-ui/src/layout/sys.rs:112-122 | Collapsing then expanding restores the component. The queue ends by re-adding the normal set. |
| `ConstraintStore.HandleUpdates` | lime-ui/src/layout/sys.rs:124-127 | Hands out all pending updates oldest first and empties the queue. |
| `LayoutEngine.Resize` | lime-ui/src/layout/sys.rs:62-70 | An unknown edit variable or an internal fault is fatal. Otherwise the value is suggested and the constraints and edit variables stay. |
| `LayoutEngine.AddConstraintStep` | lime-ui/src/layout/sys.rs:72-81 | A duplicate or an unsatisfiable constraint gives one warning and an unchanged solver. Only an internal fault aborts. A clean add inserts exactly that constraint. |
| `LayoutEngine.RemoveConstraintStep` | lime-ui/src/layout/sys.rs:83-91 | Removing an absent constraint gives one warning and an unchanged solver. Only an internal fault aborts. A clean removal drops exactly that constraint. |
| `LayoutEngine.ZeroPin` | lime-ui/src/layout/sys.rs:37-38 | The zero pin is a required constraint. |
| `LayoutEngine.Setup` | lime-ui/src/layout/sys.rs:28-60 | The solver holds only the zero pin. Width and height are edit variables just below required and carry the current window size. The root's position spans them. The readers start at the channel ends. The required constraints are satisfiable. Setup succeeds whenever the arithmetic neither faults nor rejects the pin. |
| `LayoutEngine.ApplyResize` | lime-ui/src/layout/sys.rs:103-110 | Only the newest unread size is applied, to width and height. All size events are marked read. With none unread the solver is untouched. |
| `LayoutEngine.LastDimensionsWin` | lime-ui/src/layout/sys.rs:103 | Two channels whose unread parts end in the same size give the same solver. Older sizes are superseded. |
| `LayoutEngine.VisibilityStep` | lime-ui/src/layout/sys.rs:113-120 | Leaving `Collapsed` expands the entity's constraints. Entering it collapses them. Neutral changes, and entities without constraints, change nothing. |
| `LayoutEngine.ApplyVisibility` | lime-ui/src/layout/sys.rs:112-122 | Processing the unread changes keeps the set of components and only appends to the queue. |
| `LayoutEngine.ApplyVisibilityAppend` | lime-ui/src/layout/sys.rs:112-122 | Processing a batch equals processing its parts in order. |
| `LayoutEngine.ApplyVisibilityOne` | lime-ui/src/layout/sys.rs:112-122 | A batch of one change is exactly that change's expand, collapse or nothing. With the append lemma, every change in a batch is handled in order and none is skipped. |
| `LayoutEngine.LayoutNeutralChangesQueueNothing` | lime-ui/src/layout/sys.rs:113 | A batch of `Visible`/`Hidden` changes queues nothing and changes nothing. |
| `LayoutEngine.UpdateStep` | lime-ui/src/layout/sys.rs:124-127 | An update never touches the edit variables or suggestions. |
| `LayoutEngine.ApplyUpdates` | lime-ui/src/layout/sys.rs:124-127 | Draining the queue never touches edit variables. It logs at most one warning per update. It aborts only on an internal fault. |
| `LayoutEngine.ApplyUpdatesSnoc` | lime-ui/src/layout/sys.rs:124-127 | Updates are applied oldest first: a queue plus one update is the queue, then that update. |
| `LayoutEngine.ApplyUpdatesNetEffect` | lime-ui/src/layout/sys.rs:72-91 | Without faults or unsatisfiable constraints, draining never aborts. A constraint is held afterwards exactly when the last update naming it adds it, or when no update names it and it was held before. |
| `LayoutEngine.NetPresentLast` | lime-ui/src/layout/sys.rs:124-127 | The last update decides the presence of the constraint it names. |
| `LayoutEngine.NetPresentOther` | lime-ui/src/layout/sys.rs:124-127 | An update naming another constraint leaves a constraint's net presence unchanged. |
| `LayoutEngine.ApplyUpdatesKeepConsistent` | lime-ui/src/layout/sys.rs:124-127 | Draining keeps the required constraints satisfiable under a monotone arithmetic. |
| `LayoutEngine.Extend` | lime-ui/src/layout/sys.rs:129-130 | The accumulator gains exactly the fetched variables. For a variable fetched twice the later value wins. Variables not fetched keep their value. |
| `LayoutEngine.ApplyChanges` | lime-ui/src/layout/sys.rs:129-137 | Positions are re-read from the merged changes exactly when there are any, and otherwise untouched. The accumulator is empty afterwards. |
| `LayoutEngine.Run` | lime-ui/src/layout/sys.rs:102-138 | A tick aborts only on an unknown edit variable or an internal fault. A completed tick reads both channels to the end and empties the update queue and the change accumulator. It keeps edit variables, components and positioned entities. |
| `LayoutEngine.RunCompletesWithoutFaults` | lime-ui/src/layout/sys.rs:72-91 | Without internal faults, and with both window variables registered, every tick completes. Duplicate, unknown and unsatisfiable constraints never abort. |
| `LayoutEngine.NoFaultsNoAbort` | lime-ui/src/layout/sys.rs:124-127 | Without internal faults no update queue aborts. |
| `LayoutEngine.RunKeepsConsistent` | lime-ui/src/layout/sys.rs:102-138 | A tick keeps the solver's required constraints satisfiable under a monotone arithmetic. |
| `LayoutEngine.IdleTickIsNoOp` | lime-ui/src/layout/sys.rs:102-138 | A tick with nothing unread, queued or changed changes nothing and logs nothing. |
| `LayoutEngine.LayoutNeutralTickLeavesSolver` | lime-ui/src/layout/sys.rs:102-127 | A tick with no unread window size, only `Visible`/`Hidden` changes and an empty queue leaves the solver and the constraint storage as they were, with no warnings. |
| `LayoutEngine.RunAbortsOnFault` | lime-ui/src/layout/sys.rs:62-91 | A failed window resize aborts the tick with its fatal error. In particular, an unread size with an unregistered width variable aborts with an unknown edit variable. Otherwise the tick aborts exactly when draining the update queue aborts, and with that fault. |
| `LayoutEngine.RunEffect` | lime-ui/src/layout/sys.rs:102-138 | With two distinct registered window variables, and without internal faults or unsatisfiable constraints, a tick completes. The newest unread window size is suggested for width and height, and with none unread the suggestions stay. Every unread visibility change is applied to the components. A constraint is held afterwards exactly when the last queued update naming it adds it, or when none names it and it was held before. Positions are re-read from the merged changes exactly when there are any. |
| `LayoutEngine.FreshEngineTicks` | lime-ui/src/layout/sys.rs:28-60 | A freshly built engine has valid readers, two distinct registered window variables and satisfiable required constraints. So its ticks complete without internal faults and keep the required constraints satisfiable under a monotone arithmetic. |

## Left out

- Solver arithmetic: the simplex, floating-point values and `fetch_changes` results are not computed. The changed-value report is a parameter of `LayoutEngine.Run`, and satisfiability and internal faults come from the `Oracle`.
- The files defining the `Constraints` component, `Position` and `Position::update` (the layout module's `cons.rs` and `pos.rs`) are not part of this model. `expand` and `collapse` are modelled as swapping a normal constraint set with a zero-size substitute, by queueing removals and then additions. `Position::update` is a parameter.
- LayoutEngine.ApplyChanges: re-reading a position from changed values is a parameter, so the resulting rectangles are not stated.
- LayoutEngine.Setup: does not state the root's resolved rectangle (origin, window width and height), because that needs the solver's numbers.
- LayoutEngine.Setup: the failure of inserting the root position (`unwrap_or_else(throw)`) is not modelled, because the position storage is a map that always accepts.
- Constraint identity: a constraint is a shared handle compared by identity in the solver. The model gives each constraint an `id`, so two constraints built separately from the same terms differ only if their ids differ; choosing fresh ids is left to the caller.
- The pending-update queue of the `Constraints` storage is one storage-wide queue, in the order the updates were produced. Its real layout lives in `cons.rs`, which is not part of this model.
- EventRouting.KeyboardFocus: the debug assertion that the root is alive is not modelled.
- Hit testing (`mouse::hit_test`), `KeyboardEvent::from_input` and `MouseEvent::from_input` belong to files outside this model. They are parameters of the router (`Collaborators`). The model fixes only that a converted button event is a press or release, not Enter/Exit.
- Cursor coordinates (`f64`, cast to `f32`) and raw motion deltas are opaque integers, and casting is not modelled.
- Scene-file parsing (`Seed`, the erased deserializer) and component storage are abstract. The read and store routines are parameters of `ComponentRegistry.DeserializeAndInsert`, and registered routines are named by the variant that built them; `ComponentRegistry.Halves` supplies the halves a tag names.
- ComponentRegistry.Invoke: a type that implements the combined read-and-store trait directly, rather than through its own read and store, is modelled as its own read followed by its own store; such direct implementations live outside this model.
- Type identity (`TypeId`) is a tag per built-in component type, plus a named tag for application types.
- Logging text: recoverable errors are `Warning` values, not formatted log lines, and panics carry a reason rather than the message text.
- The ECS plumbing (specs system data, dispatcher registration, `shrev` reader ids) is reduced to plain values and channel cursors.


=== FILE: common.dfy ===
/** Shared vocabulary of the UI model: optional values, fallible results and
    the opaque entity handles of the component store. */
module Common {

  /** Rust's `Option`: a value that may be absent. */
  datatype Option<+T> = None | Some(value: T)

  /** A value or an error; stands for Rust's `Result`. */
  datatype Result<+T, +E> = Success(value: T) | Failure(error: E) {

    predicate IsFailure() {
      Failure?
    }

    function PropagateFailure<U>(): Result<U, E>
      requires Failure?
    {
      Failure(error)
    }

    function Extract(): T
      requires Success?
    {
      value
    }
  }

  /** An entity of the component store. Only equality of entities is ever
      used; the index/generation pair mirrors how the store names them. */
  datatype Entity = Entity(index: nat, generation: nat)

  /** An append-only event channel read through a cursor: `Unread` is what a
      reader at `cursor` has not seen yet. */
  function Unread<T>(channel: seq<T>, cursor: nat): (r: seq<T>)
    requires cursor <= |channel|
    ensures |r| == |channel| - cursor
    ensures forall i :: 0 <= i < |r| ==> r[i] == channel[cursor + i]
  {
    channel[cursor..]
  }
}

=== FILE: constraint_store.dfy ===
/** The `Constraints` component storage as the layout engine uses it: each
    entity's constraint component, and the queue of pending solver updates
    that the components produce. Expanding or collapsing an entity queues
    the swap between its normal constraints and the zero-size substitute;
    the engine drains the queue once per tick, oldest update first. */
module ConstraintStore {
  import opened Common
  import opened Cassowary

  datatype ConstraintUpdate = Add(c: Constraint) | Remove(c: Constraint)

  /** One entity's constraints: its normal set, the zero-size set that stands
      in for it while it is collapsed, and which of the two is in force. */
  datatype Constraints = Constraints(normal: seq<Constraint>, collapsed: seq<Constraint>, expanded: bool)

  /** The storage: components by entity, and the updates not yet handed to
      the solver, oldest first, across all entities. */
  datatype ConstraintsStorage = ConstraintsStorage(components: map<Entity, Constraints>, pending: seq<ConstraintUpdate>)

  function Removes(cs: seq<Constraint>): (r: seq<ConstraintUpdate>)
    ensures |r| == |cs|
    ensures forall i :: 0 <= i < |cs| ==> r[i] == Remove(cs[i])
  {
    seq(|cs|, i requires 0 <= i < |cs| => Remove(cs[i]))
  }

  function Adds(cs: seq<Constraint>): (r: seq<ConstraintUpdate>)
    ensures |r| == |cs|
    ensures forall i :: 0 <= i < |cs| ==> r[i] == Add(cs[i])
  {
    seq(|cs|, i requires 0 <= i < |cs| => Add(cs[i]))
  }

  /** Restores an entity's normal constraints: queues the removal of the
      substitute, then the addition of the normal set. */
  function Expand(st: ConstraintsStorage, e: Entity): (r: ConstraintsStorage)
    requires e in st.components
    ensures r.components.Keys == st.components.Keys
    ensures r.components[e].expanded
    ensures r.components == st.components[e := st.components[e].(expanded := true)]
    ensures r.pending == st.pending + Removes(st.components[e].collapsed) + Adds(st.components[e].normal)
  {
    var con := st.components[e];
    ConstraintsStorage(st.components[e := con.(expanded := true)],
                       st.pending + Removes(con.collapsed) + Adds(con.normal))
  }

  /** Folds an entity away: queues the removal of its normal constraints,
      then the addition of the zero-size substitute. */
  function Collapse(st: ConstraintsStorage, e: Entity): (r: ConstraintsStorage)
    requires e in st.components
    ensures r.components.Keys == st.components.Keys
    ensures !r.components[e].expanded
    ensures r.components == st.components[e := st.components[e].(expanded := false)]
    ensures r.pending == st.pending + Removes(st.components[e].normal) + Adds(st.components[e].collapsed)
  {
    var con := st.components[e];
    ConstraintsStorage(st.components[e := con.(expanded := false)],
                       st.pending + Removes(con.normal) + Adds(con.collapsed))
  }

  /** Collapsing and then expanding puts the component back as it was and
      queues a sequence that ends by re-adding the normal set. */
  lemma CollapseThenExpand(st: ConstraintsStorage, e: Entity)
    requires e in st.components && st.components[e].expanded
    ensures Expand(Collapse(st, e), e).components == st.components
    ensures var con := st.components[e];
            Expand(Collapse(st, e), e).pending ==
              st.pending + Removes(con.normal) + Adds(con.collapsed) + Removes(con.collapsed) + Adds(con.normal)
  {
  }

  /** Hands out every pending update, oldest first, and empties the queue;
      the components themselves are left as they are. */
  function HandleUpdates(st: ConstraintsStorage): (r: (seq<ConstraintUpdate>, ConstraintsStorage))
    ensures r.0 == st.pending
    ensures r.1.pending == [] && r.1.components == st.components
  {
    (st.pending, st.(pending := []))
  }
}

=== FILE: event_routing.dfy ===
/** Routing of window input to UI entities: keyboard input goes to the entity
    holding keyboard focus (or the root when that entity is gone), pointer
    input goes to the entity under the cursor, with Enter/Exit events marking
    every change of the hovered entity. */
module EventRouting {
  import opened Common

  /** Cursor coordinates. The window reports floating-point values; the model
      only passes them along, so an opaque pair stands in for them. */
  datatype Point = Point(x: int, y: int)

  datatype Modifiers = Modifiers(shift: bool, ctrl: bool, alt: bool, logo: bool)

  datatype ElementState = Pressed | Released

  datatype MouseButton = Left | Right | Middle | OtherButton(code: nat)

  /** A raw key press or release as the window reports it. */
  datatype KeyboardInput = KeyboardInput(scancode: nat, state: ElementState, modifiers: Modifiers)

  datatype KeyboardEvent = Char(c: char) | Key(scancode: nat, state: ElementState, modifiers: Modifiers)

  datatype MouseEvent =
    | Enter
    | Exit
    | Move(point: Point, modifiers: Modifiers)
    | MoveRaw(dx: int, dy: int)
    | Input(input: ButtonEvent)

  /** What a button press or release becomes; the conversion itself is one of
      the `Collaborators`. */
  datatype ButtonEvent = Press(button: MouseButton, modifiers: Modifiers) | Release(button: MouseButton, modifiers: Modifiers)

  /** An event addressed to one entity, as written to the UI event channel. */
  datatype Event = Keyboard(entity: Entity, kind: KeyboardEvent) | Mouse(entity: Entity, mouse: MouseEvent)

  datatype WindowEvent =
    | KeyboardInputEvent(input: KeyboardInput)
    | ReceivedCharacter(c: char)
    | CursorMoved(position: Point, modifiers: Modifiers)
    | CursorLeft
    | MouseInput(state: ElementState, button: MouseButton, modifiers: Modifiers)
    | OtherWindowEvent(code: nat)

  datatype DeviceEvent = MouseMotion(dx: int, dy: int) | OtherDeviceEvent(code: nat)

  /** A window-system event as delivered by the event loop. */
  datatype WinitEvent = Window(windowEvent: WindowEvent) | Device(deviceEvent: DeviceEvent) | OtherEvent(code: nat)

  /** Translations the routing relies on but does not define: the hit test of
      the laid-out tree, and the conversions of raw key and button input. */
  datatype Collaborators = Collaborators(
    hitTest: (Entity, Point) -> Option<Entity>,
    keyboardFromInput: KeyboardInput -> Option<KeyboardEvent>,
    mouseFromInput: (ElementState, MouseButton, Modifiers) -> ButtonEvent)

  /** The resources the routing reads and writes: the root entity, the set of
      live entities, the keyboard focus, the hovered entity and the output
      channel. */
  datatype RoutingState = RoutingState(
    root: Entity,
    alive: set<Entity>,
    keyboardFocus: Entity,
    hover: Option<Entity>,
    events: seq<Event>)

  /** The target of keyboard input: the focused entity while it is alive,
      otherwise the root. */
  function KeyboardFocus(s: RoutingState): (e: Entity)
    ensures s.keyboardFocus in s.alive ==> e == s.keyboardFocus
    ensures s.keyboardFocus !in s.alive ==> e == s.root
    ensures e in s.alive || e == s.root
  {
    if s.keyboardFocus in s.alive then s.keyboardFocus else s.root
  }

  function Emit(s: RoutingState, ev: Event): (r: RoutingState)
    ensures r.events == s.events + [ev]
    ensures r.hover == s.hover
  {
    s.(events := s.events + [ev])
  }

  function KeyboardInputStep(s: RoutingState, input: KeyboardInput, env: Collaborators): (r: RoutingState)
    ensures r.hover == s.hover
    ensures |r.events| == |s.events| + 1 <==> env.keyboardFromInput(input).Some?
    ensures env.keyboardFromInput(input).None? ==> r == s
    ensures env.keyboardFromInput(input).Some? ==>
              r.events == s.events + [Keyboard(KeyboardFocus(s), env.keyboardFromInput(input).value)]
  {
    match env.keyboardFromInput(input)
    case Some(event) => Emit(s, Keyboard(KeyboardFocus(s), event))
    case None => s
  }

  function ReceivedCharacterStep(s: RoutingState, c: char): (r: RoutingState)
    ensures r.hover == s.hover
    ensures |r.events| == |s.events| + 1
    ensures r.events[|s.events|] == Keyboard(KeyboardFocus(s), Char(c))
    ensures r.events[..|s.events|] == s.events
  {
    Emit(s, Keyboard(KeyboardFocus(s), Char(c)))
  }

  /** Emits Exit to the old hover and Enter to the new one when the hit test
      names a different entity, then a Move to whatever is hovered now. */
  function CursorMovedStep(s: RoutingState, point: Point, modifiers: Modifiers, env: Collaborators): (r: RoutingState)
    ensures r.hover == env.hitTest(s.root, point)
    ensures s.hover == r.hover ==>
              r.events == s.events + (if r.hover.Some? then [Mouse(r.hover.value, Move(point, modifiers))] else [])
    ensures s.hover != r.hover ==>
              r.events == s.events
                          + (if s.hover.Some? then [Mouse(s.hover.value, Exit)] else [])
                          + (if r.hover.Some? then [Mouse(r.hover.value, Enter), Mouse(r.hover.value, Move(point, modifiers))] else [])
  {
    var hit := env.hitTest(s.root, point);
    var s1 := if s.hover != hit then
                var s0 := if s.hover.Some? then Emit(s, Mouse(s.hover.value, Exit)) else s;
                var s0' := if hit.Some? then Emit(s0, Mouse(hit.value, Enter)) else s0;
                s0'.(hover := hit)
              else s;
    if s1.hover.Some? then Emit(s1, Mouse(s1.hover.value, Move(point, modifiers))) else s1
  }

  function CursorLeftStep(s: RoutingState): (r: RoutingState)
    ensures r.hover == None
    ensures r.events == s.events + (if s.hover.Some? then [Mouse(s.hover.value, Exit)] else [])
  {
    var s1 := if s.hover.Some? then Emit(s, Mouse(s.hover.value, Exit)) else s;
    s1.(hover := None)
  }

  /** A button press or release goes to the hovered entity, if any. */
  function MouseInputStep(s: RoutingState, state: ElementState, button: MouseButton, modifiers: Modifiers, env: Collaborators)
    : (r: RoutingState)
    ensures r.hover == s.hover
    ensures s.hover.None? ==> r == s
    ensures s.hover.Some? ==> r.events == s.events + [Mouse(s.hover.value, Input(env.mouseFromInput(state, button, modifiers)))]
  {
    if s.hover.Some? then Emit(s, Mouse(s.hover.value, Input(env.mouseFromInput(state, button, modifiers)))) else s
  }

  /** Raw pointer motion goes to the hovered entity, if any. */
  function MouseMotionStep(s: RoutingState, dx: int, dy: int): (r: RoutingState)
    ensures r.hover == s.hover
    ensures s.hover.None? ==> r == s
    ensures s.hover.Some? ==> r.events == s.events + [Mouse(s.hover.value, MoveRaw(dx, dy))]
  {
    if s.hover.Some? then Emit(s, Mouse(s.hover.value, MoveRaw(dx, dy))) else s
  }

  /** Whether the router reacts to an event at all. */
  predicate IsRouted(ev: WinitEvent)
  {
    || (ev.Window? && !ev.windowEvent.OtherWindowEvent?)
    || (ev.Device? && ev.deviceEvent.MouseMotion?)
  }

  /** Dispatches one window-system event to its handler. */
  function Run(s: RoutingState, ev: WinitEvent, env: Collaborators): (r: RoutingState)
    ensures !IsRouted(ev) ==> r == s
    ensures r.root == s.root && r.alive == s.alive && r.keyboardFocus == s.keyboardFocus
    ensures |s.events| <= |r.events| && r.events[..|s.events|] == s.events
  {
    match ev
    case Window(we) =>
      (match we
       case KeyboardInputEvent(input) => KeyboardInputStep(s, input, env)
       case ReceivedCharacter(c) => ReceivedCharacterStep(s, c)
       case CursorMoved(position, modifiers) => CursorMovedStep(s, position, modifiers, env)
       case CursorLeft => CursorLeftStep(s)
       case MouseInput(state, button, modifiers) => MouseInputStep(s, state, button, modifiers, env)
       case OtherWindowEvent(_) => s)
    case Device(de) =>
      (match de
       case MouseMotion(dx, dy) => MouseMotionStep(s, dx, dy)
       case OtherDeviceEvent(_) => s)
    case OtherEvent(_) => s
  }

  // ---------------------------------------------------------------------
  // Hover discipline: replaying the emitted mouse events from the initial
  // hover reproduces the current hover, and every mouse event is addressed
  // to the entity hovered at that moment.
  // ---------------------------------------------------------------------

  /** The hover after one emitted event, or `None` when the event breaks the
      discipline: Enter only while nothing is hovered, every other mouse event
      only to the hovered entity. Keyboard events leave the hover alone. */
  function HoverAfter(hover: Option<Entity>, ev: Event): Option<Option<Entity>>
  {
    match ev
    case Keyboard(_, _) => Some(hover)
    case Mouse(e, Enter) => if hover.None? then Some(Some(e)) else None
    case Mouse(e, Exit) => if hover == Some(e) then Some(None) else None
    case Mouse(e, _) => if hover == Some(e) then Some(hover) else None
  }

  /** Replays a log of events from an initial hover; `None` when some event
      breaks the discipline. */
  function Replay(hover: Option<Entity>, log: seq<Event>): Option<Option<Entity>>
    decreases |log|
  {
    if |log| == 0 then Some(hover)
    else match HoverAfter(hover, log[0])
         case None => None
         case Some(h) => Replay(h, log[1..])
  }

  /** Replaying a concatenation is replaying its parts in turn. */
  lemma {:induction false} ReplayAppend(hover: Option<Entity>, a: seq<Event>, b: seq<Event>)
    ensures Replay(hover, a + b) == (match Replay(hover, a) case None => None case Some(h) => Replay(h, b))
    decreases |a|
  {
    if |a| == 0 {
      assert a + b == b;
    } else {
      assert (a + b)[0] == a[0];
      assert (a + b)[1..] == a[1..] + b;
      match HoverAfter(hover, a[0])
      case None =>
      case Some(h) => ReplayAppend(h, a[1..], b);
    }
  }

  /** The channel, replayed from the hover the router started with, agrees
      with the hover the router holds now. */
  predicate HoverConsistent(initialHover: Option<Entity>, s: RoutingState)
  {
    Replay(initialHover, s.events) == Some(s.hover)
  }

  lemma ReplayAppendConsistent(initialHover: Option<Entity>, s: RoutingState, tail: seq<Event>, hover: Option<Entity>)
    requires HoverConsistent(initialHover, s)
    requires Replay(s.hover, tail) == Some(hover)
    ensures Replay(initialHover, s.events + tail) == Some(hover)
  {
    ReplayAppend(initialHover, s.events, tail);
  }

  /** Every routed event keeps the channel consistent with the hover: Enter
      and Exit alternate per entity and pointer events only reach the entity
      under the cursor, whatever the hit test answers. */
  lemma {:induction false} RunKeepsHoverConsistent(initialHover: Option<Entity>, s: RoutingState, ev: WinitEvent, env: Collaborators)
    requires HoverConsistent(initialHover, s)
    ensures HoverConsistent(initialHover, Run(s, ev, env))
  {
    var r := Run(s, ev, env);
    var tail := r.events[|s.events|..];
    assert r.events == s.events + tail;
    match ev
    case Window(we) =>
      match we {
      case KeyboardInputEvent(input) =>
        if env.keyboardFromInput(input).Some? {
          assert tail == [Keyboard(KeyboardFocus(s), env.keyboardFromInput(input).value)];
          ReplayAppendConsistent(initialHover, s, tail, r.hover);
        }
      case ReceivedCharacter(c) =>
        assert tail == [Keyboard(KeyboardFocus(s), Char(c))];
        ReplayAppendConsistent(initialHover, s, tail, r.hover);
      case CursorMoved(position, modifiers) =>
        CursorMovedKeepsHoverConsistent(initialHover, s, position, modifiers, env);
      case CursorLeft =>
        CursorLeftKeepsHoverConsistent(initialHover, s);
      case MouseInput(state, button, modifiers) =>
        if s.hover.Some? {
          var m := env.mouseFromInput(state, button, modifiers);
          assert tail == [Mouse(s.hover.value, Input(m))];
          ReplayAppendConsistent(initialHover, s, tail, r.hover);
        }
      case OtherWindowEvent(_) =>
      }
    case Device(de) =>
      match de {
      case MouseMotion(dx, dy) =>
        if s.hover.Some? {
          assert tail == [Mouse(s.hover.value, MoveRaw(dx, dy))];
          ReplayAppendConsistent(initialHover, s, tail, r.hover);
        }
      case OtherDeviceEvent(_) =>
      }
    case OtherEvent(_) =>
  }

  /** A cursor move emits Exit to the old hover and Enter to the new one
      exactly around a change of hover, then a Move to the new hover: the
      replay ends at the hit-tested entity. */
  lemma CursorMovedKeepsHoverConsistent(
    initialHover: Option<Entity>, s: RoutingState, position: Point, modifiers: Modifiers, env: Collaborators)
    requires HoverConsistent(initialHover, s)
    ensures HoverConsistent(initialHover, CursorMovedStep(s, position, modifiers, env))
  {
    var r := CursorMovedStep(s, position, modifiers, env);
    var hit := env.hitTest(s.root, position);
    var move := if hit.Some? then [Mouse(hit.value, Move(position, modifiers))] else [];
    assert Replay(hit, move) == Some(hit);
    var tail;
    if s.hover == hit {
      tail := move;
    } else {
      var exit := if s.hover.Some? then [Mouse(s.hover.value, Exit)] else [];
      var enter := if hit.Some? then [Mouse(hit.value, Enter)] else [];
      tail := exit + (enter + move);
      assert r.events == s.events + tail;
      assert Replay(s.hover, exit) == Some(None);
      assert Replay(None, enter) == Some(hit);
      ReplayAppend(None, enter, move);
      ReplayAppend(s.hover, exit, enter + move);
    }
    ReplayAppendConsistent(initialHover, s, tail, r.hover);
  }

  /** Leaving the window emits Exit to the hovered entity, if any, and the
      replay ends with nothing hovered. */
  lemma CursorLeftKeepsHoverConsistent(initialHover: Option<Entity>, s: RoutingState)
    requires HoverConsistent(initialHover, s)
    ensures HoverConsistent(initialHover, CursorLeftStep(s))
  {
    if s.hover.Some? {
      ReplayAppendConsistent(initialHover, s, [Mouse(s.hover.value, Exit)], None);
    }
  }

  /** Each kind of window-system event reaches its own handler: typed
      characters and key input go to the keyboard focus, a cursor move
      re-hit-tests the hover (sending Exit, Enter and Move as the cursor
      step does), leaving the window sends Exit and clears the hover, and button input
      and raw motion go to the hovered entity, or nowhere when nothing is
      hovered. */
  lemma RunDispatch(s: RoutingState, ev: WinitEvent, env: Collaborators)
    ensures ev.Window? && ev.windowEvent.ReceivedCharacter? ==>
              var r := Run(s, ev, env);
              r.hover == s.hover && r.events == s.events + [Keyboard(KeyboardFocus(s), Char(ev.windowEvent.c))]
    ensures ev.Window? && ev.windowEvent.KeyboardInputEvent? ==>
              var r := Run(s, ev, env);
              && r.hover == s.hover
              && r.events == s.events + (match env.keyboardFromInput(ev.windowEvent.input)
                                         case Some(k) => [Keyboard(KeyboardFocus(s), k)]
                                         case None => [])
    ensures ev.Window? && ev.windowEvent.CursorMoved? ==>
              Run(s, ev, env).hover == env.hitTest(s.root, ev.windowEvent.position)
    ensures ev.Window? && ev.windowEvent.CursorMoved? ==>
              Run(s, ev, env) == CursorMovedStep(s, ev.windowEvent.position, ev.windowEvent.modifiers, env)
    ensures ev.Window? && ev.windowEvent.CursorLeft? ==> Run(s, ev, env).hover == None
    ensures ev.Window? && ev.windowEvent.CursorLeft? ==>
              Run(s, ev, env).events == s.events + (match s.hover
                                                    case Some(e) => [Mouse(e, Exit)]
                                                    case None => [])
    ensures ev.Window? && ev.windowEvent.MouseInput? ==>
              var we := ev.windowEvent;
              var r := Run(s, ev, env);
              && r.hover == s.hover
              && r.events == s.events + (match s.hover
                                         case Some(e) => [Mouse(e, Input(env.mouseFromInput(we.state, we.button, we.modifiers)))]
                                         case None => [])
    ensures ev.Device? && ev.deviceEvent.MouseMotion? ==>
              var r := Run(s, ev, env);
              && r.hover == s.hover
              && r.events == s.events + (match s.hover
                                         case Some(e) => [Mouse(e, MoveRaw(ev.deviceEvent.dx, ev.deviceEvent.dy))]
                                         case None => [])
  {
  }

  /** Every keyboard event a step emits is addressed to the keyboard focus as
      it stood before the step, and that entity is alive or is the root. */
  lemma KeyboardEventsGoToFocus(s: RoutingState, ev: WinitEvent, env: Collaborators)
    ensures var r := Run(s, ev, env);
            forall i :: |s.events| <= i < |r.events| && r.events[i].Keyboard? ==>
              && r.events[i].entity == KeyboardFocus(s)
              && (r.events[i].entity in s.alive || r.events[i].entity == s.root)
  {
  }

  /** Leaving the window twice emits a single Exit: the second call finds
      nothing hovered and changes nothing. */
  lemma CursorLeftTwice(s: RoutingState)
    ensures CursorLeftStep(CursorLeftStep(s)) == CursorLeftStep(s)
    ensures |CursorLeftStep(s).events| <= |s.events| + 1
  {
  }
}

=== FILE: layout_engine.dfy ===
/** The layout engine: it owns the constraint solver, pins the root to the
    window size, and once per tick applies the latest window size, turns
    visibility changes into constraint swaps, hands every queued constraint
    update to the solver in order, and pushes changed variable values into
    the entities' positions. */
module LayoutEngine {
  import opened Common
  import opened Cassowary
  import opened ConstraintStore
  import opened VisibilityModel

  /** Window sizes are unsigned 32-bit integers. */
  type U32 = x: int | 0 <= x < 0x1_0000_0000

  datatype ScreenDimensions = ScreenDimensions(width: U32, height: U32)

  /** A resolved rectangle; the numbers stand for the floating-point values
      the solver produces and are never computed with here. */
  datatype Rect = Rect(left: int, top: int, width: int, height: int)

  /** An entity's position: the four solver variables it is read from and the
      rectangle last read from them. */
  datatype Position = Position(left: Variable, top: Variable, width: Variable, height: Variable, rect: Rect)

  /** The root sits at the origin (the variable pinned to zero) and spans the
      two window-size edit variables. Its rectangle has not been read from the
      solver yet; the all-zero rectangle is an arbitrary placeholder, since the
      real starting value belongs to code outside this model. */
  function RootPosition(zero: Variable, width: Variable, height: Variable): Position
  {
    Position(zero, zero, width, height, Rect(0, 0, 0, 0))
  }

  /** The engine's own state: the solver, the accumulated variable changes,
      the read cursors of the window-size and visibility channels, and the two
      edit variables bound to the window size. */
  datatype LayoutSystem = LayoutSystem(
    solver: Solver,
    changes: map<Variable, int>,
    dimsReader: nat,
    visReader: nat,
    width: Variable,
    height: Variable)

  /** The parts of the world the engine reads and writes during a tick. */
  datatype World = World(
    dimsChannel: seq<ScreenDimensions>,
    visibilityEvents: seq<VisibilityEvent>,
    constraints: ConstraintsStorage,
    positions: map<Entity, Position>)

  /** Recoverable problems: logged, skipped, and the tick goes on. */
  datatype Warning = AddedTwice(c: Constraint) | Unsatisfiable(c: Constraint) | RemovedTwice(c: Constraint)

  /** Broken invariants that abort the process. */
  datatype Fatal =
    | EditVariableUnknown(v: Variable)
    | SolverFault(msg: string)
    | SetupConstraintRefused(error: AddConstraintError)
    | SetupEditVariableRefused(v: Variable, editError: AddEditVariableError)

  /** The outcome of a step: a value with the warnings logged on the way, or
      an abort. */
  datatype Tick<T> = Ok(value: T, warnings: seq<Warning>) | Abort(fatal: Fatal)

  /** Fatal outcomes of a tick are only ever the two invariant violations. */
  predicate IsTickFatal(f: Fatal)
  {
    f.EditVariableUnknown? || f.SolverFault?
  }

  // ---------------------------------------------------------------------
  // Solver wrapper
  // ---------------------------------------------------------------------

  /** Suggests a window dimension for an edit variable. An unknown variable
      or an internal solver error is fatal. */
  function Resize(s: Solver, v: Variable, value: U32, o: Oracle): (r: Result<Solver, Fatal>)
    ensures v !in s.edits ==> r == Failure(EditVariableUnknown(v))
    ensures v in s.edits && o.internalFault(s, SuggestValueRequest(v, value)).Some? ==>
              r == Failure(SolverFault(o.internalFault(s, SuggestValueRequest(v, value)).value))
    ensures v in s.edits && o.internalFault(s, SuggestValueRequest(v, value)).None? ==>
              r.Success? && v in r.value.suggested && r.value.suggested[v] == value
    ensures r.Success? ==>
              && r.value.constraints == s.constraints && r.value.edits == s.edits
              && forall u :: u in s.suggested && u != v ==> u in r.value.suggested && r.value.suggested[u] == s.suggested[u]
  {
    match SuggestValue(s, v, value, o)
    case Success(s') => Success(s')
    case Failure(UnknownEditVariable) => Failure(EditVariableUnknown(v))
    case Failure(SuggestInternalError(msg)) => Failure(SolverFault(msg))
  }

  /** Adds a constraint. Adding one twice, or adding an unsatisfiable required
      one, is logged and leaves the solver unchanged; only an internal solver
      error is fatal. */
  function AddConstraintStep(s: Solver, c: Constraint, o: Oracle): (r: Tick<Solver>)
    ensures c in s.constraints ==> r == Ok(s, [AddedTwice(c)])
    ensures c !in s.constraints && IsRequired(c) && !o.satisfiable(RequiredOf(s.constraints + {c})) ==>
              r == Ok(s, [Unsatisfiable(c)])
    ensures r.Abort? <==> AddConstraint(s, c, o).Failure? && AddConstraint(s, c, o).error.AddInternalError?
    ensures r.Abort? ==> r.fatal.SolverFault?
    ensures r.Ok? && r.warnings == [] ==> r.value == s.(constraints := s.constraints + {c})
    ensures r.Ok? ==> c in r.value.constraints || r.warnings == [Unsatisfiable(c)]
    ensures r.Ok? ==> |r.warnings| <= 1 && r.value.constraints <= s.constraints + {c}
  {
    match AddConstraint(s, c, o)
    case Success(s') => Ok(s', [])
    case Failure(DuplicateConstraint) => Ok(s, [AddedTwice(c)])
    case Failure(UnsatisfiableConstraint) => Ok(s, [Unsatisfiable(c)])
    case Failure(AddInternalError(msg)) => Abort(SolverFault(msg))
  }

  /** Removes a constraint. Removing one the solver does not hold is logged
      and leaves the solver unchanged; only an internal solver error is
      fatal. */
  function RemoveConstraintStep(s: Solver, c: Constraint, o: Oracle): (r: Tick<Solver>)
    ensures c !in s.constraints ==> r == Ok(s, [RemovedTwice(c)])
    ensures c in s.constraints && o.internalFault(s, RemoveConstraintRequest(c)).None? ==>
              r == Ok(s.(constraints := s.constraints - {c}), [])
    ensures r.Abort? <==> c in s.constraints && o.internalFault(s, RemoveConstraintRequest(c)).Some?
    ensures r.Abort? ==> r.fatal.SolverFault?
    ensures r.Ok? ==> c !in r.value.constraints
  {
    match RemoveConstraint(s, c, o)
    case Success(s') => Ok(s', [])
    case Failure(UnknownConstraint) => Ok(s, [RemovedTwice(c)])
    case Failure(RemoveInternalError(msg)) => Abort(SolverFault(msg))
  }

  // ---------------------------------------------------------------------
  // Setup
  // ---------------------------------------------------------------------

  /** The constraint holding the `zero` variable at 0, exactly. Its handle is
      numbered like the variable it pins. */
  function ZeroPin(zero: Variable): (c: Constraint)
    ensures IsRequired(c)
    ensures c.relation == Equal && c.constant == 0 && c.terms == [Term(zero, 1)]
  {
    Constraint(zero.id, [Term(zero, 1)], 0, Equal, Required)
  }

  /** Strength of the window-size edit variables: just below required, so
      they yield to conflicting required constraints. */
  const EditStrength: int := Required - 1

  /** Creates the engine: a fresh solver with `zero` pinned, the two window
      edit variables registered, the root's position inserted, and the current
      window size suggested. Variables are numbered from `firstId`. Both
      channel readers start at the current end of their channels. Any solver
      refusal during setup is fatal. */
  function Setup(w: World, dims: ScreenDimensions, root: Entity, o: Oracle, firstId: nat)
    : (r: Result<(LayoutSystem, World), Fatal>)
    ensures r.Success? ==>
              var (sys, w') := r.value;
              && sys.solver.constraints == {ZeroPin(Variable(firstId))}
              && sys.width == Variable(firstId + 1) && sys.height == Variable(firstId + 2)
              && sys.solver.edits == map[sys.width := EditStrength, sys.height := EditStrength]
              && sys.solver.suggested == map[sys.width := dims.width, sys.height := dims.height]
              && sys.changes == map[]
              && sys.dimsReader == |w.dimsChannel| && sys.visReader == |w.visibilityEvents|
              && w' == w.(positions := w.positions[root := RootPosition(Variable(firstId), sys.width, sys.height)])
    ensures r.Success? ==> ReadersValid(r.value.0, r.value.1) && Consistent(r.value.0.solver, o)
    ensures NeverFaults(o) && o.satisfiable({ZeroPin(Variable(firstId))}) ==> r.Success?
    ensures r.Failure? && NeverFaults(o) ==> r.error == SetupConstraintRefused(UnsatisfiableConstraint)
  {
    var zero := Variable(firstId);
    var width := Variable(firstId + 1);
    var height := Variable(firstId + 2);
    assert RequiredOf({} + {ZeroPin(zero)}) == {ZeroPin(zero)};
    match AddConstraint(Cassowary.New(), ZeroPin(zero), o)
    case Failure(e) => Failure(SetupConstraintRefused(e))
    case Success(s1) =>
      match AddEditVariable(s1, width, EditStrength, o)
      case Failure(e) => Failure(SetupEditVariableRefused(width, e))
      case Success(s2) =>
        match AddEditVariable(s2, height, EditStrength, o)
        case Failure(e) => Failure(SetupEditVariableRefused(height, e))
        case Success(s3) =>
          var sys := LayoutSystem(s3, map[], |w.dimsChannel|, |w.visibilityEvents|, width, height);
          var w' := w.(positions := w.positions[root := RootPosition(zero, width, height)]);
          var s4 :- Resize(s3, width, dims.width, o);
          var s5 :- Resize(s4, height, dims.height, o);
          Success((sys.(solver := s5), w'))
  }

  // ---------------------------------------------------------------------
  // Tick phase 1: window size
  // ---------------------------------------------------------------------

  /** Applies only the newest unread window size, to both edit variables, and
      marks every window-size event as read. With nothing unread the solver
      is left as it is. */
  function ApplyResize(sys: LayoutSystem, channel: seq<ScreenDimensions>, o: Oracle): (r: Result<LayoutSystem, Fatal>)
    requires sys.dimsReader <= |channel|
    ensures r.Success? ==> r.value == sys.(solver := r.value.solver, dimsReader := |channel|)
    ensures r.Success? ==> r.value.solver.constraints == sys.solver.constraints && r.value.solver.edits == sys.solver.edits
    ensures sys.dimsReader == |channel| ==> r == Success(sys.(dimsReader := |channel|))
    ensures sys.dimsReader < |channel| && NeverFaults(o) && sys.width in sys.solver.edits && sys.height in sys.solver.edits ==>
              && r.Success?
              && sys.height in r.value.solver.suggested
              && r.value.solver.suggested[sys.height] == channel[|channel| - 1].height
              && sys.width in r.value.solver.suggested
              && (sys.width != sys.height ==> r.value.solver.suggested[sys.width] == channel[|channel| - 1].width)
    ensures r.Failure? ==> IsTickFatal(r.error)
  {
    var unread := Unread(channel, sys.dimsReader);
    if |unread| == 0 then Success(sys.(dimsReader := |channel|))
    else
      var dims := unread[|unread| - 1];
      var s1 :- Resize(sys.solver, sys.width, dims.width, o);
      var s2 :- Resize(s1, sys.height, dims.height, o);
      Success(sys.(solver := s2, dimsReader := |channel|))
  }

  /** Older unread window sizes are superseded: two channels whose unread
      parts end in the same size lead to the same solver. */
  lemma LastDimensionsWin(sys: LayoutSystem, c1: seq<ScreenDimensions>, c2: seq<ScreenDimensions>, o: Oracle)
    requires sys.dimsReader < |c1| && sys.dimsReader < |c2|
    requires c1[|c1| - 1] == c2[|c2| - 1]
    ensures ApplyResize(sys, c1, o).Success? <==> ApplyResize(sys, c2, o).Success?
    ensures ApplyResize(sys, c1, o).Success? ==> ApplyResize(sys, c1, o).value.solver == ApplyResize(sys, c2, o).value.solver
  {
  }

  // ---------------------------------------------------------------------
  // Tick phase 2: visibility
  // ---------------------------------------------------------------------

  /** One visibility change: leaving `Collapsed` expands the entity's
      constraints, entering it collapses them; any other change, or an entity
      without constraints, changes nothing. */
  function VisibilityStep(st: ConstraintsStorage, ev: VisibilityEvent): (r: ConstraintsStorage)
    ensures ev.entity !in st.components ==> r == st
    ensures (ev.oldState == Collapsed) == (ev.newState == Collapsed) ==> r == st
    ensures ev.entity in st.components && ev.oldState == Collapsed && ev.newState != Collapsed ==>
              r == Expand(st, ev.entity)
    ensures ev.entity in st.components && ev.oldState != Collapsed && ev.newState == Collapsed ==>
              r == Collapse(st, ev.entity)
  {
    match NeedsLayoutChanged(ev)
    case None => st
    case Some(needsLayout) =>
      if ev.entity in st.components then
        (if needsLayout then Expand(st, ev.entity) else Collapse(st, ev.entity))
      else st
  }

  /** Every unread visibility change, oldest first; none is skipped. */
  function ApplyVisibility(st: ConstraintsStorage, events: seq<VisibilityEvent>): (r: ConstraintsStorage)
    ensures r.components.Keys == st.components.Keys
    ensures |st.pending| <= |r.pending| && r.pending[..|st.pending|] == st.pending
    decreases |events|
  {
    if |events| == 0 then st else ApplyVisibility(VisibilityStep(st, events[0]), events[1..])
  }

  /** Consuming a batch of changes is consuming its parts in turn. */
  lemma {:induction false} ApplyVisibilityAppend(st: ConstraintsStorage, a: seq<VisibilityEvent>, b: seq<VisibilityEvent>)
    ensures ApplyVisibility(st, a + b) == ApplyVisibility(ApplyVisibility(st, a), b)
    decreases |a|
  {
    if |a| == 0 {
      assert a + b == b;
    } else {
      assert (a + b)[0] == a[0];
      assert (a + b)[1..] == a[1..] + b;
      ApplyVisibilityAppend(VisibilityStep(st, a[0]), a[1..], b);
    }
  }

  /** A batch of one change is that change's step: with `ApplyVisibilityAppend`
      this pins the batch down to every change handled in turn, none
      skipped. */
  lemma ApplyVisibilityOne(st: ConstraintsStorage, ev: VisibilityEvent)
    ensures ApplyVisibility(st, [ev]) == VisibilityStep(st, ev)
  {
  }

  /** Changes between `Visible` and `Hidden` are layout-neutral: a batch of
      them queues nothing and leaves every component as it was. */
  lemma {:induction false} LayoutNeutralChangesQueueNothing(st: ConstraintsStorage, events: seq<VisibilityEvent>)
    requires forall i :: 0 <= i < |events| ==> events[i].oldState != Collapsed && events[i].newState != Collapsed
    ensures ApplyVisibility(st, events) == st
    decreases |events|
  {
    if |events| > 0 {
      LayoutNeutralChangesQueueNothing(st, events[1..]);
    }
  }

  // ---------------------------------------------------------------------
  // Tick phase 3: constraint updates
  // ---------------------------------------------------------------------

  function UpdateStep(s: Solver, u: ConstraintUpdate, o: Oracle): (r: Tick<Solver>)
    ensures r.Ok? ==> r.value.edits == s.edits && r.value.suggested == s.suggested
  {
    match u
    case Add(c) => AddConstraintStep(s, c, o)
    case Remove(c) => RemoveConstraintStep(s, c, o)
  }

  /** Continues a tick with a further update, unless it already aborted. */
  function Then(t: Tick<Solver>, u: ConstraintUpdate, o: Oracle): Tick<Solver>
  {
    match t
    case Abort(f) => Abort(f)
    case Ok(s, w) =>
      match UpdateStep(s, u, o)
      case Abort(f) => Abort(f)
      case Ok(s', w') => Ok(s', w + w')
  }

  /** Hands the updates to the solver oldest first, collecting the warnings
      in the same order; the first fatal outcome aborts. */
  function ApplyUpdates(s: Solver, updates: seq<ConstraintUpdate>, o: Oracle): (r: Tick<Solver>)
    ensures r.Ok? ==> r.value.edits == s.edits && r.value.suggested == s.suggested
    ensures r.Ok? ==> |r.warnings| <= |updates|
    ensures r.Abort? ==> r.fatal.SolverFault?
    decreases |updates|
  {
    if |updates| == 0 then Ok(s, [])
    else
      match UpdateStep(s, updates[0], o)
      case Abort(f) => Abort(f)
      case Ok(s1, w1) =>
        match ApplyUpdates(s1, updates[1..], o)
        case Abort(f) => Abort(f)
        case Ok(s2, w2) => Ok(s2, w1 + w2)
  }

  /** Order of application: a queue followed by one more update is the queue
      applied first and that update after it. */
  lemma {:induction false} ApplyUpdatesSnoc(s: Solver, updates: seq<ConstraintUpdate>, u: ConstraintUpdate, o: Oracle)
    ensures ApplyUpdates(s, updates + [u], o) == Then(ApplyUpdates(s, updates, o), u, o)
    decreases |updates|
  {
    if |updates| == 0 {
      assert updates + [u] == [u];
      assert [u][1..] == [];
      match UpdateStep(s, u, o)
      case Abort(f) =>
      case Ok(s1, w1) => assert w1 + [] == [] + w1;
    } else {
      assert (updates + [u])[0] == updates[0];
      assert (updates + [u])[1..] == updates[1..] + [u];
      match UpdateStep(s, updates[0], o)
      case Abort(f) =>
      case Ok(s1, w1) =>
        ApplyUpdatesSnoc(s1, updates[1..], u, o);
        match ApplyUpdates(s1, updates[1..], o)
        case Abort(f) =>
        case Ok(s2, w2) =>
          match UpdateStep(s2, u, o)
          case Abort(f) =>
          case Ok(s3, w3) => assert w1 + (w2 + w3) == (w1 + w2) + w3;
    }
  }

  /** No update after position `i` mentions `c`. */
  ghost predicate UntouchedAfter(updates: seq<ConstraintUpdate>, c: Constraint, i: int)
  {
    forall j :: 0 <= j < |updates| && i < j ==> updates[j].c != c
  }

  /** Net effect of a queue on one constraint: present at the end exactly
      when the last update mentioning it adds it, or when no update mentions
      it and it was present before. */
  ghost predicate NetPresent(initial: set<Constraint>, updates: seq<ConstraintUpdate>, c: Constraint)
  {
    || (exists i :: 0 <= i < |updates| && updates[i] == Add(c) && UntouchedAfter(updates, c, i))
    || (c in initial && UntouchedAfter(updates, c, -1))
  }

  /** An arithmetic under which every set of constraints can hold. */
  ghost predicate AlwaysSatisfiable(o: Oracle)
  {
    forall cs :: o.satisfiable(cs)
  }

  /** With no faults and no unsatisfiable constraints, draining a queue is
      never fatal and leaves the solver holding exactly the net surviving
      constraints, however often a constraint was added or removed on the
      way: duplicate adds and removals of absent constraints change nothing. */
  lemma {:induction false} ApplyUpdatesNetEffect(s: Solver, updates: seq<ConstraintUpdate>, o: Oracle)
    requires NeverFaults(o) && AlwaysSatisfiable(o)
    ensures ApplyUpdates(s, updates, o).Ok?
    ensures forall c :: c in ApplyUpdates(s, updates, o).value.constraints <==> NetPresent(s.constraints, updates, c)
    decreases |updates|
  {
    if |updates| == 0 {
      forall c ensures c in s.constraints <==> NetPresent(s.constraints, updates, c) {
        assert UntouchedAfter(updates, c, -1);
      }
    } else {
      var front := updates[..|updates| - 1];
      var u := updates[|updates| - 1];
      assert updates == front + [u];
      ApplyUpdatesNetEffect(s, front, o);
      ApplyUpdatesSnoc(s, front, u, o);
      var mid := ApplyUpdates(s, front, o).value;
      var fin := ApplyUpdates(s, updates, o).value;
      assert UpdateStep(mid, u, o).Ok?;
      assert fin == UpdateStep(mid, u, o).value;
      forall c ensures c in fin.constraints <==> NetPresent(s.constraints, updates, c) {
        if u.c == c {
          NetPresentLast(s.constraints, front, u, c);
        } else {
          NetPresentOther(s.constraints, front, u, c);
          assert c in fin.constraints <==> c in mid.constraints;
        }
      }
    }
  }

  /** The last update decides the net presence of the constraint it names. */
  lemma NetPresentLast(initial: set<Constraint>, front: seq<ConstraintUpdate>, u: ConstraintUpdate, c: Constraint)
    requires u.c == c
    ensures NetPresent(initial, front + [u], c) <==> u.Add?
  {
    var updates := front + [u];
    if u.Add? {
      assert updates[|front|] == Add(c) && UntouchedAfter(updates, c, |front|);
    } else {
      assert !UntouchedAfter(updates, c, -1) by { assert updates[|front|].c == c; }
      forall i | 0 <= i < |updates| && updates[i] == Add(c) ensures !UntouchedAfter(updates, c, i) {
        if i < |front| {
          assert updates[|front|].c == c;
        }
      }
    }
  }

  /** An update naming another constraint does not change a constraint's net
      presence. */
  lemma NetPresentOther(initial: set<Constraint>, front: seq<ConstraintUpdate>, u: ConstraintUpdate, c: Constraint)
    requires u.c != c
    ensures NetPresent(initial, front + [u], c) <==> NetPresent(initial, front, c)
  {
    var updates := front + [u];
    assert forall j :: 0 <= j < |front| ==> updates[j] == front[j];
    assert forall i :: -1 <= i < |front| ==> (UntouchedAfter(updates, c, i) <==> UntouchedAfter(front, c, i));
    if exists i :: 0 <= i < |updates| && updates[i] == Add(c) && UntouchedAfter(updates, c, i) {
      var i :| 0 <= i < |updates| && updates[i] == Add(c) && UntouchedAfter(updates, c, i);
      assert i < |front|;
      assert front[i] == Add(c) && UntouchedAfter(front, c, i);
    }
    if exists i :: 0 <= i < |front| && front[i] == Add(c) && UntouchedAfter(front, c, i) {
      var i :| 0 <= i < |front| && front[i] == Add(c) && UntouchedAfter(front, c, i);
      assert updates[i] == Add(c) && UntouchedAfter(updates, c, i);
    }
  }

  /** Draining keeps the solver's required constraints satisfiable. */
  lemma {:induction false} ApplyUpdatesKeepConsistent(s: Solver, updates: seq<ConstraintUpdate>, o: Oracle)
    requires Monotone(o) && Consistent(s, o)
    ensures ApplyUpdates(s, updates, o).Ok? ==> Consistent(ApplyUpdates(s, updates, o).value, o)
    decreases |updates|
  {
    if |updates| > 0 {
      var u := updates[0];
      match UpdateStep(s, u, o)
      case Abort(_) =>
      case Ok(s1, _) =>
        match u {
          case Add(c) =>
            if AddConstraint(s, c, o).Success? { AddKeepsConsistent(s, c, o); }
          case Remove(c) =>
            if RemoveConstraint(s, c, o).Success? { RemoveKeepsConsistent(s, c, o); }
        }
        ApplyUpdatesKeepConsistent(s1, updates[1..], o);
    }
  }

  // ---------------------------------------------------------------------
  // Tick phase 4: changed variables
  // ---------------------------------------------------------------------

  /** `v` is the variable of some fetched change. */
  ghost predicate Fetched(fetched: seq<(Variable, int)>, v: Variable)
  {
    exists i :: 0 <= i < |fetched| && fetched[i].0 == v
  }

  /** The change at `i` is the last one fetched for its variable. */
  ghost predicate LastChangeAt(fetched: seq<(Variable, int)>, i: int)
    requires 0 <= i < |fetched|
  {
    forall j :: i < j < |fetched| ==> fetched[j].0 != fetched[i].0
  }

  /** Merges fetched changes into the accumulator; for a variable changed
      more than once, the latest value wins, and variables not fetched keep
      their accumulated value. */
  function Extend(acc: map<Variable, int>, fetched: seq<(Variable, int)>): (r: map<Variable, int>)
    ensures forall v :: v in r <==> v in acc || Fetched(fetched, v)
    ensures forall i :: 0 <= i < |fetched| && LastChangeAt(fetched, i) ==> fetched[i].0 in r && r[fetched[i].0] == fetched[i].1
    ensures forall v :: v in acc && !Fetched(fetched, v) ==> r[v] == acc[v]
    decreases |fetched|
  {
    if |fetched| == 0 then acc
    else
      var r := Extend(acc[fetched[0].0 := fetched[0].1], fetched[1..]);
      FetchedCons(fetched);
      LastChangeAtCons(fetched);
      r
  }

  /** The variables of a non-empty list of changes: its first variable and
      those of the rest. */
  lemma FetchedCons(fetched: seq<(Variable, int)>)
    requires |fetched| > 0
    ensures forall v :: Fetched(fetched, v) <==> v == fetched[0].0 || Fetched(fetched[1..], v)
  {
  }

  /** A last change after the first position stays a last change in the
      rest of the list. */
  lemma LastChangeAtCons(fetched: seq<(Variable, int)>)
    requires |fetched| > 0
    ensures forall i :: 0 < i < |fetched| && LastChangeAt(fetched, i) ==> LastChangeAt(fetched[1..], i - 1)
  {
  }

  /** Folds the fetched changes into the accumulator and, when it then holds
      anything, updates every position from it. The accumulator is empty
      afterwards either way. */
  function ApplyChanges(
    sys: LayoutSystem, positions: map<Entity, Position>, fetched: seq<(Variable, int)>,
    update: (Position, map<Variable, int>) -> Position): (r: (LayoutSystem, map<Entity, Position>))
    ensures r.0 == sys.(changes := map[])
    ensures Extend(sys.changes, fetched) == map[] ==> r.1 == positions
    ensures Extend(sys.changes, fetched) != map[] ==>
              r.1.Keys == positions.Keys &&
              forall e :: e in positions ==> r.1[e] == update(positions[e], Extend(sys.changes, fetched))
  {
    var acc := Extend(sys.changes, fetched);
    if acc != map[] then
      (sys.(changes := map[]), map e | e in positions :: update(positions[e], acc))
    else
      (sys.(changes := acc), positions)
  }

  // ---------------------------------------------------------------------
  // The tick
  // ---------------------------------------------------------------------

  /** The read cursors never run past the end of their channels. */
  predicate ReadersValid(sys: LayoutSystem, w: World)
  {
    sys.dimsReader <= |w.dimsChannel| && sys.visReader <= |w.visibilityEvents|
  }

  /** One tick. `fetched` is the solver's report of the variables whose values
      changed, and `update` re-reads a position from changed values; both
      belong to code outside this model. */
  function Run(
    sys: LayoutSystem, w: World, o: Oracle, fetched: seq<(Variable, int)>,
    update: (Position, map<Variable, int>) -> Position): (r: Tick<(LayoutSystem, World)>)
    requires ReadersValid(sys, w)
    ensures r.Abort? ==> IsTickFatal(r.fatal)
    ensures r.Ok? ==>
              var (sys', w') := r.value;
              && sys'.changes == map[]
              && sys'.dimsReader == |w.dimsChannel| && sys'.visReader == |w.visibilityEvents|
              && sys'.width == sys.width && sys'.height == sys.height
              && sys'.solver.edits == sys.solver.edits
              && w'.dimsChannel == w.dimsChannel && w'.visibilityEvents == w.visibilityEvents
              && w'.constraints.pending == []
              && w'.constraints.components.Keys == w.constraints.components.Keys
              && w'.positions.Keys == w.positions.Keys
  {
    match ApplyResize(sys, w.dimsChannel, o)
    case Failure(f) => Abort(f)
    case Success(sys1) =>
      var cons1 := ApplyVisibility(w.constraints, Unread(w.visibilityEvents, sys.visReader));
      var (updates, cons2) := HandleUpdates(cons1);
      match ApplyUpdates(sys1.solver, updates, o)
      case Abort(f) => Abort(f)
      case Ok(solver, warnings) =>
        var sys2 := sys1.(solver := solver, visReader := |w.visibilityEvents|);
        var (sys3, positions) := ApplyChanges(sys2, w.positions, fetched, update);
        Ok((sys3, w.(constraints := cons2, positions := positions)), warnings)
  }

  /** Recoverable problems never abort a tick: without internal solver faults
      and with both window variables registered, every tick completes. */
  lemma RunCompletesWithoutFaults(
    sys: LayoutSystem, w: World, o: Oracle, fetched: seq<(Variable, int)>,
    update: (Position, map<Variable, int>) -> Position)
    requires ReadersValid(sys, w)
    requires NeverFaults(o)
    requires sys.width in sys.solver.edits && sys.height in sys.solver.edits
    ensures Run(sys, w, o, fetched, update).Ok?
  {
    var sys1 := ApplyResize(sys, w.dimsChannel, o);
    assert sys1.Success?;
    var cons1 := ApplyVisibility(w.constraints, Unread(w.visibilityEvents, sys.visReader));
    NoFaultsNoAbort(sys1.value.solver, cons1.pending, o);
  }

  /** Without internal faults, no queue of updates aborts. */
  lemma {:induction false} NoFaultsNoAbort(s: Solver, updates: seq<ConstraintUpdate>, o: Oracle)
    requires NeverFaults(o)
    ensures ApplyUpdates(s, updates, o).Ok?
    decreases |updates|
  {
    if |updates| > 0 {
      assert UpdateStep(s, updates[0], o).Ok?;
      NoFaultsNoAbort(UpdateStep(s, updates[0], o).value, updates[1..], o);
    }
  }

  /** A tick keeps the solver's required constraints satisfiable. */
  lemma RunKeepsConsistent(
    sys: LayoutSystem, w: World, o: Oracle, fetched: seq<(Variable, int)>,
    update: (Position, map<Variable, int>) -> Position)
    requires ReadersValid(sys, w)
    requires Monotone(o) && Consistent(sys.solver, o)
    ensures Run(sys, w, o, fetched, update).Ok? ==> Consistent(Run(sys, w, o, fetched, update).value.0.solver, o)
  {
    match ApplyResize(sys, w.dimsChannel, o)
    case Failure(_) =>
    case Success(sys1) =>
      var cons1 := ApplyVisibility(w.constraints, Unread(w.visibilityEvents, sys.visReader));
      ApplyUpdatesKeepConsistent(sys1.solver, cons1.pending, o);
  }

  /** An idle tick (nothing unread, nothing queued, nothing changed) changes
      nothing and logs nothing. */
  lemma IdleTickIsNoOp(
    sys: LayoutSystem, w: World, o: Oracle,
    update: (Position, map<Variable, int>) -> Position)
    requires sys.dimsReader == |w.dimsChannel| && sys.visReader == |w.visibilityEvents|
    requires w.constraints.pending == [] && sys.changes == map[]
    ensures Run(sys, w, o, [], update) == Ok((sys, w), [])
  {
  }

  /** A tick whose only new visibility changes are between `Visible` and
      `Hidden` queues no constraint update and so hands the solver nothing. */
  lemma LayoutNeutralTickLeavesSolver(
    sys: LayoutSystem, w: World, o: Oracle, fetched: seq<(Variable, int)>,
    update: (Position, map<Variable, int>) -> Position)
    requires ReadersValid(sys, w)
    requires sys.dimsReader == |w.dimsChannel| && w.constraints.pending == []
    requires forall i :: sys.visReader <= i < |w.visibilityEvents| ==>
               w.visibilityEvents[i].oldState != Collapsed && w.visibilityEvents[i].newState != Collapsed
    ensures Run(sys, w, o, fetched, update).Ok?
    ensures Run(sys, w, o, fetched, update).value.0.solver == sys.solver
    ensures Run(sys, w, o, fetched, update).warnings == []
    ensures Run(sys, w, o, fetched, update).value.1.constraints == w.constraints
  {
    var unread := Unread(w.visibilityEvents, sys.visReader);
    LayoutNeutralChangesQueueNothing(w.constraints, unread);
  }

  /** Faults abort the tick: a failed window resize (an unknown window edit
      variable or an internal fault) aborts with that fatal error, and
      otherwise the tick aborts exactly when draining the update queue
      aborts. */
  lemma RunAbortsOnFault(
    sys: LayoutSystem, w: World, o: Oracle, fetched: seq<(Variable, int)>,
    update: (Position, map<Variable, int>) -> Position)
    requires ReadersValid(sys, w)
    ensures ApplyResize(sys, w.dimsChannel, o).Failure? ==>
              Run(sys, w, o, fetched, update) == Abort(ApplyResize(sys, w.dimsChannel, o).error)
    ensures sys.dimsReader < |w.dimsChannel| && sys.width !in sys.solver.edits ==>
              Run(sys, w, o, fetched, update) == Abort(EditVariableUnknown(sys.width))
    ensures ApplyResize(sys, w.dimsChannel, o).Success? ==>
              (Run(sys, w, o, fetched, update).Abort? <==>
               ApplyUpdates(ApplyResize(sys, w.dimsChannel, o).value.solver,
                            ApplyVisibility(w.constraints, Unread(w.visibilityEvents, sys.visReader)).pending, o).Abort?)
    ensures ApplyResize(sys, w.dimsChannel, o).Success? ==>
              var drained := ApplyUpdates(ApplyResize(sys, w.dimsChannel, o).value.solver,
                                          ApplyVisibility(w.constraints, Unread(w.visibilityEvents, sys.visReader)).pending, o);
              drained.Abort? ==> Run(sys, w, o, fetched, update) == Abort(drained.fatal)
  {
  }

  /** The whole effect of a tick, when the arithmetic never faults and every
      constraint set can hold: the tick completes; the newest unread window
      size reaches both window variables (with none unread the suggestions
      stay); every unread visibility change becomes its expand or collapse;
      the solver ends up holding exactly the net result of the whole update
      queue; and positions are re-read exactly when some value changed. */
  lemma RunEffect(
    sys: LayoutSystem, w: World, o: Oracle, fetched: seq<(Variable, int)>,
    update: (Position, map<Variable, int>) -> Position)
    requires ReadersValid(sys, w)
    requires NeverFaults(o) && AlwaysSatisfiable(o)
    requires sys.width in sys.solver.edits && sys.height in sys.solver.edits && sys.width != sys.height
    ensures Run(sys, w, o, fetched, update).Ok?
    ensures var cons := ApplyVisibility(w.constraints, Unread(w.visibilityEvents, sys.visReader));
            var (sys', w') := Run(sys, w, o, fetched, update).value;
            && w'.constraints.components == cons.components
            && forall c :: c in sys'.solver.constraints <==> NetPresent(sys.solver.constraints, cons.pending, c)
    ensures sys.dimsReader < |w.dimsChannel| ==>
              var solver' := Run(sys, w, o, fetched, update).value.0.solver;
              && sys.width in solver'.suggested && sys.height in solver'.suggested
              && solver'.suggested[sys.width] == w.dimsChannel[|w.dimsChannel| - 1].width
              && solver'.suggested[sys.height] == w.dimsChannel[|w.dimsChannel| - 1].height
    ensures sys.dimsReader == |w.dimsChannel| ==>
              Run(sys, w, o, fetched, update).value.0.solver.suggested == sys.solver.suggested
    ensures Run(sys, w, o, fetched, update).value.1.positions == ApplyChanges(sys, w.positions, fetched, update).1
  {
    var sys1 := ApplyResize(sys, w.dimsChannel, o);
    assert sys1.Success?;
    var cons1 := ApplyVisibility(w.constraints, Unread(w.visibilityEvents, sys.visReader));
    var (updates, cons2) := HandleUpdates(cons1);
    ApplyUpdatesNetEffect(sys1.value.solver, updates, o);
    var applied := ApplyUpdates(sys1.value.solver, updates, o);
    var sys2 := sys1.value.(solver := applied.value, visReader := |w.visibilityEvents|);
    assert Run(sys, w, o, fetched, update) == Ok(
      (ApplyChanges(sys2, w.positions, fetched, update).0,
       w.(constraints := cons2, positions := ApplyChanges(sys2, w.positions, fetched, update).1)),
      applied.warnings);
  }

  /** A freshly built engine meets what the tick lemmas assume, so each of its
      ticks completes when the arithmetic never faults, and keeps the
      solver's required constraints satisfiable under a monotone arithmetic. */
  lemma FreshEngineTicks(
    w: World, dims: ScreenDimensions, root: Entity, o: Oracle, firstId: nat,
    fetched: seq<(Variable, int)>, update: (Position, map<Variable, int>) -> Position)
    requires Setup(w, dims, root, o, firstId).Success?
    ensures var (sys, w') := Setup(w, dims, root, o, firstId).value;
            && ReadersValid(sys, w')
            && sys.width in sys.solver.edits && sys.height in sys.solver.edits && sys.width != sys.height
            && Consistent(sys.solver, o)
            && (NeverFaults(o) ==> Run(sys, w', o, fetched, update).Ok?)
            && (Monotone(o) && Run(sys, w', o, fetched, update).Ok? ==>
                  Consistent(Run(sys, w', o, fetched, update).value.0.solver, o))
  {
    var (sys, w') := Setup(w, dims, root, o, firstId).value;
    if NeverFaults(o) {
      RunCompletesWithoutFaults(sys, w', o, fetched, update);
    }
    if Monotone(o) {
      RunKeepsConsistent(sys, w', o, fetched, update);
    }
  }
}

=== FILE: registry.dfy ===
/** The component registry: a table from component names, as they appear in
    scene files, to the component's type and the routine that reads such a
    component and attaches it to an entity. */
module ComponentRegistry {
  import opened Common

  /** Identity of a component type. The seven built-in components have their
      own tags; components registered by applications are told apart by
      name. */
  datatype TypeTag =
    | BrushType
    | StyleType
    | VisibilityType
    | ButtonType
    | ButtonStyleType
    | ToggleButtonType
    | ToggleButtonStyleType
    | UserType(name: string)

  /** Where the reading half of a deserializer comes from: the serde default
      for the type, or the type's own seeded `deserialize`. */
  datatype DeserializeFn = DefaultDeserialize | OwnDeserialize

  /** Where the storing half comes from: plain insertion into the type's
      storage, or the type's own `insert`. */
  datatype InsertFn = DefaultInsert | OwnInsert

  /** A registered deserializer: read a component, then store it. The routines
      themselves are foreign code, so they are named rather than run. */
  datatype Deserializer = Deserializer(deserialize: DeserializeFn, insert: InsertFn)

  datatype Entry = Entry(ty: TypeTag, de: Deserializer)

  /** A map has no duplicate keys, so the table's uniqueness invariant is
      carried by its type. */
  datatype Registry = Registry(entries: map<string, Entry>)

  function AlreadyAdded(key: string): string
  {
    "component '" + key + "' already added"
  }

  function NotInRegistry(key: string): string
  {
    "key '" + key + "' not in registry"
  }

  /** Adds an entry under a fresh key. Reusing a key is a programming error
      that aborts, reported here as a failure naming the key. */
  function RegisterImpl(reg: Registry, key: string, ty: TypeTag, de: Deserializer): (r: Result<Registry, string>)
    ensures key in reg.entries <==> r.Failure?
    ensures r.Failure? ==> r.error == AlreadyAdded(key)
    ensures r.Success? ==> r.value.entries.Keys == reg.entries.Keys + {key}
    ensures r.Success? ==> r.value.entries[key] == Entry(ty, de)
    ensures r.Success? ==> forall k :: k in reg.entries ==> r.value.entries[k] == reg.entries[k]
  {
    if key in reg.entries then Failure(AlreadyAdded(key))
    else Success(Registry(reg.entries[key := Entry(ty, de)]))
  }

  /** Registers a type read and stored by the defaults. */
  function Register(reg: Registry, key: string, ty: TypeTag): (r: Result<Registry, string>)
    ensures key in reg.entries <==> r.Failure?
    ensures r.Success? ==> r.value.entries == reg.entries[key := Entry(ty, Deserializer(DefaultDeserialize, DefaultInsert))]
  {
    RegisterImpl(reg, key, ty, Deserializer(DefaultDeserialize, DefaultInsert))
  }

  /** Registers a type that reads itself and is stored by the default. */
  function RegisterWithDeserialize(reg: Registry, key: string, ty: TypeTag): (r: Result<Registry, string>)
    ensures key in reg.entries <==> r.Failure?
    ensures r.Success? ==> r.value.entries == reg.entries[key := Entry(ty, Deserializer(OwnDeserialize, DefaultInsert))]
  {
    RegisterImpl(reg, key, ty, Deserializer(OwnDeserialize, DefaultInsert))
  }

  /** Registers a type read by the default that stores itself. */
  function RegisterWithInsert(reg: Registry, key: string, ty: TypeTag): (r: Result<Registry, string>)
    ensures key in reg.entries <==> r.Failure?
    ensures r.Success? ==> r.value.entries == reg.entries[key := Entry(ty, Deserializer(DefaultDeserialize, OwnInsert))]
  {
    RegisterImpl(reg, key, ty, Deserializer(DefaultDeserialize, OwnInsert))
  }

  /** Registers a type with its own combined read-and-store routine. A type
      gets one either from having its own read and its own store, or by
      providing the combined routine directly; both are named here by the
      pair of own routines. */
  function RegisterWithDeserializeAndInsert(reg: Registry, key: string, ty: TypeTag): (r: Result<Registry, string>)
    ensures key in reg.entries <==> r.Failure?
    ensures r.Success? ==> r.value.entries == reg.entries[key := Entry(ty, Deserializer(OwnDeserialize, OwnInsert))]
  {
    RegisterImpl(reg, key, ty, Deserializer(OwnDeserialize, OwnInsert))
  }

  /** The four ways of registering a component. */
  datatype Variant = Plain | WithDeserialize | WithInsert | WithDeserializeAndInsert

  /** One registration call: the name, the component's type, and the variant
      used. */
  datatype Registration = Registration(key: string, ty: TypeTag, variant: Variant)

  function RegisterBy(reg: Registry, reg1: Registration): (r: Result<Registry, string>)
    ensures r == RegisterImpl(reg, reg1.key, reg1.ty, DeserializerOf(reg1.variant))
  {
    match reg1.variant
    case Plain => Register(reg, reg1.key, reg1.ty)
    case WithDeserialize => RegisterWithDeserialize(reg, reg1.key, reg1.ty)
    case WithInsert => RegisterWithInsert(reg, reg1.key, reg1.ty)
    case WithDeserializeAndInsert => RegisterWithDeserializeAndInsert(reg, reg1.key, reg1.ty)
  }

  /** The deserializer each variant builds. */
  function DeserializerOf(v: Variant): Deserializer
  {
    match v
    case Plain => Deserializer(DefaultDeserialize, DefaultInsert)
    case WithDeserialize => Deserializer(OwnDeserialize, DefaultInsert)
    case WithInsert => Deserializer(DefaultDeserialize, OwnInsert)
    case WithDeserializeAndInsert => Deserializer(OwnDeserialize, OwnInsert)
  }

  function KeysOf(regs: seq<Registration>): set<string>
  {
    set i | 0 <= i < |regs| :: regs[i].key
  }

  predicate DistinctKeys(regs: seq<Registration>)
  {
    forall i, j :: 0 <= i < j < |regs| ==> regs[i].key != regs[j].key
  }

  /** Performs the registrations in order, stopping at the first failure. The
      whole run succeeds exactly when the names are pairwise distinct and new
      to the registry, and then every name maps to its own entry. */
  function RegisterAll(reg: Registry, regs: seq<Registration>): (r: Result<Registry, string>)
    ensures r.Success? <==> DistinctKeys(regs) && KeysOf(regs) !! reg.entries.Keys
    ensures r.Success? ==> r.value.entries.Keys == reg.entries.Keys + KeysOf(regs)
    ensures r.Success? ==> forall k :: k in reg.entries ==> r.value.entries[k] == reg.entries[k]
    ensures r.Success? ==> forall i :: 0 <= i < |regs| ==>
              r.value.entries[regs[i].key] == Entry(regs[i].ty, DeserializerOf(regs[i].variant))
    decreases |regs|
  {
    if |regs| == 0 then Success(reg)
    else
      match RegisterBy(reg, regs[0])
      case Failure(e) =>
        assert regs[0].key in KeysOf(regs) && regs[0].key in reg.entries;
        Failure(e)
      case Success(reg1) =>
        var r := RegisterAll(reg1, regs[1..]);
        KeysOfCons(regs);
        if r.Failure? then r
        else
          DistinctKeysCons(regs);
          r
  }

  /** The names of a non-empty list: its first name and the names of the rest. */
  lemma KeysOfCons(regs: seq<Registration>)
    requires |regs| > 0
    ensures KeysOf(regs) == {regs[0].key} + KeysOf(regs[1..])
  {
  }

  /** A list has distinct names when its rest does and its first name does
      not occur in the rest. */
  lemma DistinctKeysCons(regs: seq<Registration>)
    requires |regs| > 0
    requires DistinctKeys(regs[1..]) && regs[0].key !in KeysOf(regs[1..])
    ensures DistinctKeys(regs)
  {
  }

  /** The names every fresh registry knows. */
  const BuiltinKeys: set<string> :=
    {"Brush", "Style", "Visibility", "Button", "ButtonStyle", "ToggleButton", "ToggleButtonStyle"}

  /** The entries of the built-in components: `Style` and `Visibility` read
      and store themselves, the others use the defaults. */
  const BuiltinTable: map<string, Entry> := map[
    "Brush" := Entry(BrushType, Deserializer(DefaultDeserialize, DefaultInsert)),
    "Style" := Entry(StyleType, Deserializer(OwnDeserialize, OwnInsert)),
    "Visibility" := Entry(VisibilityType, Deserializer(OwnDeserialize, OwnInsert)),
    "Button" := Entry(ButtonType, Deserializer(DefaultDeserialize, DefaultInsert)),
    "ButtonStyle" := Entry(ButtonStyleType, Deserializer(DefaultDeserialize, DefaultInsert)),
    "ToggleButton" := Entry(ToggleButtonType, Deserializer(DefaultDeserialize, DefaultInsert)),
    "ToggleButtonStyle" := Entry(ToggleButtonStyleType, Deserializer(DefaultDeserialize, DefaultInsert))
  ]

  /** A registry holding the built-in components, registered one after the
      other. Their names are pairwise distinct, so building it never meets
      the duplicate-key failure, and the result is the built-in table. */
  function New(): (r: Result<Registry, string>)
    ensures r == Success(Registry(BuiltinTable))
  {
    var r1 := Register(Registry(map[]), "Brush", BrushType);
    if r1.Failure? then r1 else
    var r2 := RegisterWithDeserializeAndInsert(r1.value, "Style", StyleType);
    if r2.Failure? then r2 else
    var r3 := RegisterWithDeserializeAndInsert(r2.value, "Visibility", VisibilityType);
    if r3.Failure? then r3 else
    var r4 := Register(r3.value, "Button", ButtonType);
    if r4.Failure? then r4 else
    var r5 := Register(r4.value, "ButtonStyle", ButtonStyleType);
    if r5.Failure? then r5 else
    var r6 := Register(r5.value, "ToggleButton", ToggleButtonType);
    if r6.Failure? then r6 else
    Register(r6.value, "ToggleButtonStyle", ToggleButtonStyleType)
  }

  /** The built-in table knows exactly the built-in names, each with its own
      type. */
  lemma BuiltinLookups()
    ensures BuiltinTable.Keys == BuiltinKeys
    ensures GetTy(Registry(BuiltinTable), "Brush") == Success(BrushType)
    ensures GetTy(Registry(BuiltinTable), "Style") == Success(StyleType)
    ensures GetTy(Registry(BuiltinTable), "Visibility") == Success(VisibilityType)
    ensures GetTy(Registry(BuiltinTable), "Button") == Success(ButtonType)
    ensures GetTy(Registry(BuiltinTable), "ButtonStyle") == Success(ButtonStyleType)
    ensures GetTy(Registry(BuiltinTable), "ToggleButton") == Success(ToggleButtonType)
    ensures GetTy(Registry(BuiltinTable), "ToggleButtonStyle") == Success(ToggleButtonStyleType)
  {
  }

  /** Only `Style` and `Visibility` bring their own read and store routines;
      the other built-ins use the defaults. */
  lemma BuiltinRoutines()
    ensures GetDe(Registry(BuiltinTable), "Brush") == Success(DeserializerOf(Plain))
    ensures GetDe(Registry(BuiltinTable), "Style") == Success(DeserializerOf(WithDeserializeAndInsert))
    ensures GetDe(Registry(BuiltinTable), "Visibility") == Success(DeserializerOf(WithDeserializeAndInsert))
    ensures GetDe(Registry(BuiltinTable), "Button") == Success(DeserializerOf(Plain))
    ensures GetDe(Registry(BuiltinTable), "ButtonStyle") == Success(DeserializerOf(Plain))
    ensures GetDe(Registry(BuiltinTable), "ToggleButton") == Success(DeserializerOf(Plain))
    ensures GetDe(Registry(BuiltinTable), "ToggleButtonStyle") == Success(DeserializerOf(Plain))
  {
  }

  /** The deserializer registered under `key`. */
  function GetDe(reg: Registry, key: string): (r: Result<Deserializer, string>)
    ensures r.Success? <==> key in reg.entries
    ensures r.Success? ==> r.value == reg.entries[key].de
    ensures r.Failure? ==> r.error == NotInRegistry(key)
  {
    if key in reg.entries then Success(reg.entries[key].de) else Failure(NotInRegistry(key))
  }

  /** The type registered under `key`. */
  function GetTy(reg: Registry, key: string): (r: Result<TypeTag, string>)
    ensures r.Success? <==> key in reg.entries
    ensures r.Success? ==> r.value == reg.entries[key].ty
    ensures r.Failure? ==> r.error == NotInRegistry(key)
  {
    if key in reg.entries then Success(reg.entries[key].ty) else Failure(NotInRegistry(key))
  }

  /** Both lookups succeed for exactly the same names. */
  lemma LookupsAgree(reg: Registry, key: string)
    ensures GetDe(reg, key).Success? <==> GetTy(reg, key).Success?
    ensures GetDe(reg, key).Failure? ==> GetDe(reg, key).error == GetTy(reg, key).error
  {
  }

  /** A successful registration is found by both lookups under its key and
      leaves every other lookup as it was. */
  lemma RegisterThenLookup(reg: Registry, key: string, ty: TypeTag, de: Deserializer, other: string)
    requires key !in reg.entries
    requires other != key
    ensures RegisterImpl(reg, key, ty, de).Success?
    ensures GetTy(RegisterImpl(reg, key, ty, de).value, key) == Success(ty)
    ensures GetDe(RegisterImpl(reg, key, ty, de).value, key) == Success(de)
    ensures GetTy(RegisterImpl(reg, key, ty, de).value, other) == GetTy(reg, other)
    ensures GetDe(RegisterImpl(reg, key, ty, de).value, other) == GetDe(reg, other)
  {
  }

  /** A fresh registry accepts two further components under new names,
      finds both, and then refuses a name a second time. */
  lemma RegisterTwoUserComponents()
    ensures New().Success?
    ensures Register(New().value, "comp1", UserType("Comp1")).Success?
    ensures var r2 := Register(Register(New().value, "comp1", UserType("Comp1")).value, "comp2", UserType("Comp2"));
            && r2.Success?
            && GetTy(r2.value, "comp1") == Success(UserType("Comp1"))
            && GetTy(r2.value, "comp2") == Success(UserType("Comp2"))
            && Register(r2.value, "comp1", UserType("Comp1")).Failure?
  {
    BuiltinLookups();
    assert "comp1" !in BuiltinKeys;
    assert "comp2" !in BuiltinKeys;
    assert "comp1" != "comp2" by { assert "comp1"[4] != "comp2"[4]; }
  }

  /** Reading and storing one component. The read step sees the world (it
      may, for instance, create the entities a component refers to); the store
      step runs only after a successful read, with the value read and the
      world as the read left it. A read error is returned as it is, and then
      nothing is stored. `W` is the world both steps work on. */
  function DeserializeAndInsert<I, C, W>(
    deserialize: (I, W) -> (Result<C, string>, W),
    insert: (C, Entity, W) -> (Result<(), string>, W),
    input: I, entity: Entity, world: W): (r: (Result<(), string>, W))
    ensures deserialize(input, world).0.Failure? ==>
              r == (Failure(deserialize(input, world).0.error), deserialize(input, world).1)
    ensures deserialize(input, world).0.Success? ==>
              r == insert(deserialize(input, world).0.value, entity, deserialize(input, world).1)
  {
    var (read, world1) := deserialize(input, world);
    match read
    case Failure(e) => (Failure(e), world1)
    case Success(comp) => insert(comp, entity, world1)
  }

  /** The read and store halves one component type supplies: the defaults
      derived from its data format and storage, and its own routines where it
      has them. */
  datatype Halves<!I, !C, !W> = Halves(
    defaultRead: (I, W) -> (Result<C, string>, W),
    ownRead: (I, W) -> (Result<C, string>, W),
    defaultStore: (C, Entity, W) -> (Result<(), string>, W),
    ownStore: (C, Entity, W) -> (Result<(), string>, W))

  function ReadOf<I, C, W>(d: Deserializer, h: Halves<I, C, W>): (I, W) -> (Result<C, string>, W)
  {
    match d.deserialize
    case DefaultDeserialize => h.defaultRead
    case OwnDeserialize => h.ownRead
  }

  function StoreOf<I, C, W>(d: Deserializer, h: Halves<I, C, W>): (C, Entity, W) -> (Result<(), string>, W)
  {
    match d.insert
    case DefaultInsert => h.defaultStore
    case OwnInsert => h.ownStore
  }

  /** Runs a registered routine on the halves of its component type: the
      routine is the read half its tag names followed by the store half its
      tag names. */
  function Invoke<I, C, W>(d: Deserializer, h: Halves<I, C, W>, input: I, entity: Entity, world: W): (r: (Result<(), string>, W))
    ensures ReadOf(d, h)(input, world).0.Failure? ==>
              r == (Failure(ReadOf(d, h)(input, world).0.error), ReadOf(d, h)(input, world).1)
    ensures ReadOf(d, h)(input, world).0.Success? ==> r == StoreOf(d, h)(ReadOf(d, h)(input, world).0.value, entity, ReadOf(d, h)(input, world).1)
  {
    DeserializeAndInsert(ReadOf(d, h), StoreOf(d, h), input, entity, world)
  }

  /** Each way of registering builds the routine from the halves it names:
      plain registration reads and stores by the defaults, the other three
      substitute the type's own read, own store, or both. */
  lemma VariantRoutines<I, C, W>(h: Halves<I, C, W>, input: I, entity: Entity, world: W)
    ensures Invoke(DeserializerOf(Plain), h, input, entity, world)
            == DeserializeAndInsert(h.defaultRead, h.defaultStore, input, entity, world)
    ensures Invoke(DeserializerOf(WithDeserialize), h, input, entity, world)
            == DeserializeAndInsert(h.ownRead, h.defaultStore, input, entity, world)
    ensures Invoke(DeserializerOf(WithInsert), h, input, entity, world)
            == DeserializeAndInsert(h.defaultRead, h.ownStore, input, entity, world)
    ensures Invoke(DeserializerOf(WithDeserializeAndInsert), h, input, entity, world)
            == DeserializeAndInsert(h.ownRead, h.ownStore, input, entity, world)
  {
  }

  /** Whatever name it is looked up under, a registered routine stores
      nothing when its read fails: the error is passed on and the world is as
      the read left it. */
  lemma FailedReadStoresNothing<I, C, W>(reg: Registry, key: string, h: Halves<I, C, W>, input: I, entity: Entity, world: W)
    requires GetDe(reg, key).Success?
    requires ReadOf(GetDe(reg, key).value, h)(input, world).0.Failure?
    ensures var read := ReadOf(GetDe(reg, key).value, h)(input, world);
            Invoke(GetDe(reg, key).value, h, input, entity, world) == (Failure(read.0.error), read.1)
  {
  }
}

=== FILE: solver.dfy ===
/** An abstract incremental linear-constraint solver in the style of
    Cassowary, as far as the layout engine observes it: which constraints it
    holds, which edit variables it knows, which values were suggested for
    them, and which outcome each request has. The simplex arithmetic is not
    modelled; whether a set of required constraints can hold at once, and
    whether the solver hits an internal fault, are answered by an `Oracle`. */
module Cassowary {
  import opened Common

  datatype Variable = Variable(id: nat)

  datatype Relation = LessOrEqual | Equal | GreaterOrEqual

  /** `coefficient * variable`; coefficients are opaque numbers here. */
  datatype Term = Term(variable: Variable, coefficient: int)

  /** `sum of terms + constant  relation  0`, with a priority strength. A
      constraint is a shared handle compared by identity, not by content:
      `id` names the handle, so two constraints built separately from the same
      terms are different constraints, while clones of one handle are equal. */
  datatype Constraint = Constraint(id: nat, terms: seq<Term>, constant: int, relation: Relation, strength: int)

  /** The strength of a constraint that must hold exactly. */
  const Required: int := 1_001_001_000

  /** Strengths are clipped into `[0, Required]` before use. */
  function Clip(strength: int): (r: int)
    ensures 0 <= r <= Required
    ensures 0 <= strength <= Required ==> r == strength
  {
    if strength < 0 then 0 else if strength > Required then Required else strength
  }

  predicate IsRequired(c: Constraint)
  {
    Clip(c.strength) == Required
  }

  /** The required members of a set of constraints: the only ones that can
      make the set unsatisfiable. */
  function RequiredOf(cs: set<Constraint>): (r: set<Constraint>)
    ensures forall c :: c in r <==> c in cs && IsRequired(c)
  {
    set c | c in cs && IsRequired(c)
  }

  /** The solver's observable state: its constraints, its edit variables with
      their clipped strengths, and the last value suggested for each edit
      variable. */
  datatype Solver = Solver(constraints: set<Constraint>, edits: map<Variable, int>, suggested: map<Variable, int>)

  /** Every request a solver can receive. */
  datatype Request =
    | AddConstraintRequest(c: Constraint)
    | RemoveConstraintRequest(c: Constraint)
    | AddEditVariableRequest(v: Variable, strength: int)
    | SuggestValueRequest(v: Variable, value: int)

  /** What the solver's arithmetic would decide: whether a set of required
      constraints can all hold, and whether a request meets an internal
      fault (a message) in a given state. */
  datatype Oracle = Oracle(
    satisfiable: set<Constraint> -> bool,
    internalFault: (Solver, Request) -> Option<string>)

  /** A sensible arithmetic: dropping constraints never makes a satisfiable
      set unsatisfiable. */
  ghost predicate Monotone(o: Oracle)
  {
    forall big, small :: small <= big && o.satisfiable(big) ==> o.satisfiable(small)
  }

  /** An arithmetic that never faults. */
  ghost predicate NeverFaults(o: Oracle)
  {
    forall s, req :: o.internalFault(s, req).None?
  }

  datatype AddConstraintError = DuplicateConstraint | UnsatisfiableConstraint | AddInternalError(msg: string)

  datatype RemoveConstraintError = UnknownConstraint | RemoveInternalError(msg: string)

  datatype AddEditVariableError = DuplicateEditVariable | BadRequiredStrength | EditInternalError(msg: string)

  datatype SuggestValueError = UnknownEditVariable | SuggestInternalError(msg: string)

  /** An empty solver. */
  function New(): (s: Solver)
    ensures s.constraints == {} && s.edits == map[] && s.suggested == map[]
  {
    Solver({}, map[], map[])
  }

  /** Adds a constraint. A constraint already present is refused first; a
      required constraint that cannot hold together with the required ones
      already present is refused next; otherwise the constraint is added
      unless the arithmetic faults. */
  function AddConstraint(s: Solver, c: Constraint, o: Oracle): (r: Result<Solver, AddConstraintError>)
    ensures r == Failure(DuplicateConstraint) <==> c in s.constraints
    ensures r == Failure(UnsatisfiableConstraint) <==>
              c !in s.constraints && IsRequired(c) && !o.satisfiable(RequiredOf(s.constraints + {c}))
    ensures r.Success? ==> r.value == s.(constraints := s.constraints + {c})
    ensures r.Success? ==> c !in s.constraints && (IsRequired(c) ==> o.satisfiable(RequiredOf(r.value.constraints)))
    ensures r.Failure? && r.error.AddInternalError? ==> o.internalFault(s, AddConstraintRequest(c)) == Some(r.error.msg)
  {
    if c in s.constraints then Failure(DuplicateConstraint)
    else if IsRequired(c) && !o.satisfiable(RequiredOf(s.constraints + {c})) then Failure(UnsatisfiableConstraint)
    else match o.internalFault(s, AddConstraintRequest(c))
         case Some(msg) => Failure(AddInternalError(msg))
         case None => Success(s.(constraints := s.constraints + {c}))
  }

  /** Removes a constraint; one the solver does not hold is refused. */
  function RemoveConstraint(s: Solver, c: Constraint, o: Oracle): (r: Result<Solver, RemoveConstraintError>)
    ensures r == Failure(UnknownConstraint) <==> c !in s.constraints
    ensures r.Success? ==> c in s.constraints && r.value == s.(constraints := s.constraints - {c})
    ensures r.Failure? && r.error.RemoveInternalError? ==> o.internalFault(s, RemoveConstraintRequest(c)) == Some(r.error.msg)
  {
    if c !in s.constraints then Failure(UnknownConstraint)
    else match o.internalFault(s, RemoveConstraintRequest(c))
         case Some(msg) => Failure(RemoveInternalError(msg))
         case None => Success(s.(constraints := s.constraints - {c}))
  }

  /** Makes `v` an edit variable. A variable that already is one is refused;
      so is a strength that clips to `Required`, since an edit variable must
      be able to yield. */
  function AddEditVariable(s: Solver, v: Variable, strength: int, o: Oracle): (r: Result<Solver, AddEditVariableError>)
    ensures r == Failure(DuplicateEditVariable) <==> v in s.edits
    ensures r == Failure(BadRequiredStrength) <==> v !in s.edits && Clip(strength) == Required
    ensures r.Success? ==> r.value == s.(edits := s.edits[v := Clip(strength)])
    ensures r.Failure? && r.error.EditInternalError? ==> o.internalFault(s, AddEditVariableRequest(v, strength)) == Some(r.error.msg)
  {
    if v in s.edits then Failure(DuplicateEditVariable)
    else if Clip(strength) == Required then Failure(BadRequiredStrength)
    else match o.internalFault(s, AddEditVariableRequest(v, strength))
         case Some(msg) => Failure(EditInternalError(msg))
         case None => Success(s.(edits := s.edits[v := Clip(strength)]))
  }

  /** Suggests a value for an edit variable; any other variable is refused. */
  function SuggestValue(s: Solver, v: Variable, value: int, o: Oracle): (r: Result<Solver, SuggestValueError>)
    ensures r == Failure(UnknownEditVariable) <==> v !in s.edits
    ensures r.Success? ==> r.value == s.(suggested := s.suggested[v := value])
    ensures r.Failure? && r.error.SuggestInternalError? ==> o.internalFault(s, SuggestValueRequest(v, value)) == Some(r.error.msg)
  {
    if v !in s.edits then Failure(UnknownEditVariable)
    else match o.internalFault(s, SuggestValueRequest(v, value))
         case Some(msg) => Failure(SuggestInternalError(msg))
         case None => Success(s.(suggested := s.suggested[v := value]))
  }

  /** The solver's own invariant: its required constraints can all hold. */
  predicate Consistent(s: Solver, o: Oracle)
  {
    o.satisfiable(RequiredOf(s.constraints))
  }

  /** Every successful request leaves a consistent solver consistent, given
      a monotone arithmetic: additions are checked, removals only drop
      constraints, and edit requests do not touch the constraint set. */
  lemma AddKeepsConsistent(s: Solver, c: Constraint, o: Oracle)
    requires Consistent(s, o)
    requires AddConstraint(s, c, o).Success?
    ensures Consistent(AddConstraint(s, c, o).value, o)
  {
    if !IsRequired(c) {
      assert RequiredOf(s.constraints + {c}) == RequiredOf(s.constraints);
    }
  }

  lemma RemoveKeepsConsistent(s: Solver, c: Constraint, o: Oracle)
    requires Monotone(o)
    requires Consistent(s, o)
    requires RemoveConstraint(s, c, o).Success?
    ensures Consistent(RemoveConstraint(s, c, o).value, o)
  {
  }
}

=== FILE: visibility.dfy ===
/** The per-entity visibility component: a tri-state value whose changes are
    announced on an event channel, and the classifier that tells the layout
    engine which changes alter the layout. */
module VisibilityModel {
  import opened Common

  datatype VisibilityState = Visible | Hidden | Collapsed

  /** The component itself; its only field is private in the source and is
      read through `Get`. */
  datatype Visibility = Visibility(state: VisibilityState)

  /** One announced change of an entity's visibility. */
  datatype VisibilityEvent = VisibilityEvent(entity: Entity, oldState: VisibilityState, newState: VisibilityState)

  /** A freshly created component shows its entity. */
  function New(): (v: Visibility)
    ensures Get(v) == Visible
    ensures NeedsDraw(v)
  {
    Visibility(Visible)
  }

  /** The renderer draws an entity exactly when it is neither hidden nor
      collapsed. */
  function NeedsDraw(v: Visibility): (drawn: bool)
    ensures drawn <==> Get(v) != Hidden && Get(v) != Collapsed
  {
    v.state == Visible
  }

  /** The current state; the component is nothing but its state. */
  function Get(v: Visibility): (s: VisibilityState)
    ensures v == Visibility(s)
  {
    v.state
  }

  /** Replaces the state and announces the change on `events`, but only when
      the state really changes. */
  function Set(v: Visibility, state: VisibilityState, entity: Entity, events: seq<VisibilityEvent>)
    : (r: (Visibility, seq<VisibilityEvent>))
    ensures Get(r.0) == state
    ensures Get(v) != state ==> r.1 == events + [VisibilityEvent(entity, Get(v), state)]
    ensures Get(v) == state ==> r.1 == events
  {
    var previous := v.state;
    var v' := Visibility(state);
    if previous != state then (v', events + [VisibilityEvent(entity, previous, state)]) else (v', events)
  }

  /** Whether a transition changes the layout: `Some(true)` when the entity
      must be laid out again, `Some(false)` when it must be folded away, and
      `None` when the layout is unaffected. */
  function NeedsLayoutChanged(ev: VisibilityEvent): (r: Option<bool>)
    ensures r == Some(true) <==> ev.oldState == Collapsed && ev.newState != Collapsed
    ensures r == Some(false) <==> ev.oldState != Collapsed && ev.newState == Collapsed
    ensures r == None <==> (ev.oldState == Collapsed <==> ev.newState == Collapsed)
  {
    match (ev.oldState, ev.newState)
    case (Collapsed, Collapsed) => None
    case (Collapsed, _) => Some(true)
    case (_, Collapsed) => Some(false)
    case (_, _) => None
  }

  /** Only a visible entity is drawn, whatever `Set` was last given. */
  lemma NeedsDrawIffVisible(v: Visibility, state: VisibilityState, entity: Entity, events: seq<VisibilityEvent>)
    ensures NeedsDraw(v) <==> Get(v) == Visible
    ensures NeedsDraw(Set(v, state, entity, events).0) <==> state == Visible
  {
  }

  /** Setting a state and then setting the same state again announces at
      most one event: the second call changes neither the component nor the
      channel. */
  lemma SetTwiceIsIdempotent(v: Visibility, state: VisibilityState, entity: Entity, events: seq<VisibilityEvent>)
    ensures var (v1, e1) := Set(v, state, entity, events);
            var (v2, e2) := Set(v1, state, entity, e1);
            v2 == v1 && e2 == e1 && |e2| <= |events| + 1
  {
  }

  /** Every event that `Set` emits is a real change, and such an event is
      layout-relevant exactly when one side of it is `Collapsed`. */
  lemma EmittedEventLayoutRelevance(v: Visibility, state: VisibilityState, entity: Entity, events: seq<VisibilityEvent>)
    requires Get(v) != state
    ensures var ev := Set(v, state, entity, events).1[|events|];
            ev.oldState != ev.newState &&
            (NeedsLayoutChanged(ev).Some? <==> ((ev.oldState == Collapsed) != (ev.newState == Collapsed)))
  {
  }

  /** Moving between `Visible` and `Hidden` never touches the layout, in
      either direction. */
  lemma HiddenVisibleIsLayoutNeutral(entity: Entity, oldState: VisibilityState, newState: VisibilityState)
    requires oldState != Collapsed && newState != Collapsed
    ensures NeedsLayoutChanged(VisibilityEvent(entity, oldState, newState)) == None
  {
  }
}
